=== FILE: README.md ===
# Selection propagation in Checkbox's urwid job browser

This project models the selection logic of `checkbox-ng/checkbox_ng/urwid_ui.py`
in Dafny. That file holds the terminal browser in which an operator picks the
test jobs to run, grouped by category, plus the single-choice test-plan picker.

The model has these parts:

- **Tree shape (`CategoryTree`, `TreeBuild`).** The root `CategoryNode` sits at
  depth 0, the participating categories at depth 1 and their jobs at depth 2.
  - The tree is kept as an arena: each node id maps to its parent, its ordered
    child ids, its depth and its label.
  - `TreeBuild` grows it as `load_child_keys` / `load_child_node` do.
    Categories are sorted by translated name, with Python's `sorted` over
    Python string order (`Sorting`, `StrOrder`). Jobs are sorted by id, and a
    job is labelled with the summary of the first list entry carrying its id.
- **Widget state (`Widgets`).** urwid keeps a widget per node, built on first
  `get_widget()` and starting with `flagged = True`. The model keeps the
  module globals in one `Session` value:
  - `widgets`: each live widget's `flagged`;
  - `cache`: the keys of `_widget_cache`, filled by `add_widget` from a job
    widget's constructor;
  - `showIds`: `show_job_ids`.
- **Propagation (`Propagation`).**
  - `set_descendants_state` is a recursive walk over child keys. It stops at the
    first child whose `update_w` raises `AttributeError`.
  - `set_ancestors_state` has two loops:
    - when the widget is flagged, every ancestor gets the flag;
    - otherwise it climbs while no child of the current ancestor is flagged.
      The `any(...)` generator is modelled too, including the widgets it builds
      on the way.
  - The space key runs the two passes in the source's order, with the new flag.
  - The downward pass and the flagged branch of the upward pass are each
    equal to a reference semantics, `Mark(s, ns, v)`: give every node of `ns`
    a live widget flagged `v`.
  - The clearing branch of the upward pass is described by `ClearedUpTo`,
    which speaks of flag readings only. It does not say which widgets the
    `any(...)` builds on the way, beyond their being tree nodes.
- **Invariant (`Consistency`).** A node with children is flagged exactly when
  one of its children is. Space preserves this whenever no redraw below the
  focused node fails.
- **Browser session (`Browser`).**
  - `__init__`'s `set_descendants_state(True)` from the root.
  - The keys `keypress` reacts to.
  - The main loop as a finite list of events.
  - `run()`'s result collection and cache reset.
- **Plan picker (`PlanPicker`).**
  - The radio-button group.
  - The pre-selection guard `if selection:`.
  - Python's negative indexing and `IndexError`.
  - The "first button that is on, else `None`" return.

Where a redraw raises `AttributeError` is not decided by anything in the file.
The tree therefore carries it as an input: `Tree.failing` is the set of nodes
whose `update_w` raises.

Behaviour of the code worth knowing (the model follows the code):

- **Start-up builds every widget.** `CategoryBrowser.__init__` runs
  `set_descendants_state(True)` from the root, and `get_widget()` always builds
  a widget. So when no redraw fails, every node has a widget before the loop
  starts, and every job is in `_widget_cache` (`Browser.InitMaterialisesAll`).
  A job that is never expanded therefore cannot be missing from the result
  unless a redraw failed (`Browser.RunSelection`).
- **A break is not about a missing widget.** The descendant loop fetches, and
  so builds, the child's widget before the `update_w` that may raise. A break
  is therefore never caused by a widget not existing yet.
- **`show_job_ids` carries over.** `run()` empties `_widget_cache` and
  `test_info_list` but leaves `show_job_ids` alone, so the display mode carries
  over to the next browser (`Browser.Finish`).
- **No `LookupError` for unknown categories.** A job whose `category_id` is not
  a participating category is simply not in the tree: category child keys only
  collect jobs filed under an existing category key (`TreeBuild.BuildJobNode`).
- **Index 0 cannot be pre-selected.** `if selection:` treats 0 as false, so the
  first plan cannot be pre-selected by index 0. The equivalent negative index
  `-len` does pre-select it (`PlanPicker.FirstPlanNotPreselected`).
- **The upward branch follows the widget's own flag.** `set_ancestors_state`
  chooses its branch from `self.flagged`, not from its argument. At its only
  call site the two are equal (`Propagation.DescendantsKeepFocus`), and the
  model keeps both.

## Model

| member | source | states |
|---|---|---|
| `Widgets.AddWidget` | checkbox-ng/checkbox_ng/urwid_ui.py:320-322 | registering a job widget adds exactly its id to the cache and touches no flag |
| `Widgets.GetWidget` | checkbox-ng/checkbox_ng/urwid_ui.py:43-48 | the first `get_widget()` builds a widget flagged True (registered if it is a job), so no node's visible flag changes and cache/widget agreement is kept |
| `Widgets.SetFlag` | checkbox-ng/checkbox_ng/urwid_ui.py:95-97 | assigning `flagged` changes that node's flag only |
| `Widgets.GetThenSet` | checkbox-ng/checkbox_ng/urwid_ui.py:119-120 | fetching a widget and setting its flag is exactly marking that one node |
| `Propagation.SetDescendants` | checkbox-ng/checkbox_ng/urwid_ui.py:136-148 | the downward pass only adds widgets and keeps the cache in step with the job widgets |
| `Propagation.SetDescendantsMarksReach` | checkbox-ng/checkbox_ng/urwid_ui.py:136-148 | the downward pass marks exactly the nodes it reaches (children in key order, recursing until the first failing redraw) with the new flag and nothing else |
| `Propagation.SetDescendantsAll` | checkbox-ng/checkbox_ng/urwid_ui.py:136-148 | with no failing redraw below `k`, every node below `k` ends with the new flag and gets a widget, every other node is unchanged, and a leaf is a no-op |
| `Propagation.SetDescendantsStopsAtFailure` | checkbox-ng/checkbox_ng/urwid_ui.py:139-147 | at the first failing child the child keys up to it, and whatever the downward pass reaches from each earlier one, get the flag, while the failing child's subtree and the later siblings with their subtrees keep their flags and widgets |
| `Propagation.AnyFlagged` | checkbox-ng/checkbox_ng/urwid_ui.py:127-128 | the `any(...)` test is true iff some child reads flagged, changes no reading and builds widgets only for children |
| `Propagation.SetAncestors` | checkbox-ng/checkbox_ng/urwid_ui.py:114-134 | `set_ancestors_state` builds widgets only for nodes of the tree, keeps `_widget_cache` in step with the job widgets and leaves `show_job_ids` alone |
| `Propagation.SetAncestorsRaise` | checkbox-ng/checkbox_ng/urwid_ui.py:114-123 | the flagged branch gives every ancestor up to the root the flag and changes nothing else |
| `Propagation.ClearAncestorsEffect` | checkbox-ng/checkbox_ng/urwid_ui.py:124-134 | the clearing climb clears a prefix of the ancestors whose children are all unflagged, stops at the first ancestor with a flagged child, and changes nothing else |
| `Propagation.SetAncestorsClear` | checkbox-ng/checkbox_ng/urwid_ui.py:114-134 | from an unflagged widget the upward pass ends in the state the clearing climb describes |
| `Propagation.Toggle` | checkbox-ng/checkbox_ng/urwid_ui.py:95-99 | space only adds widgets and keeps the cache in step |
| `Propagation.DescendantsKeepFocus` | checkbox-ng/checkbox_ng/urwid_ui.py:96-98 | after the downward pass the focused widget still holds the new flag, so the upward pass takes that flag's branch; nodes outside the subtree are untouched |
| `Propagation.ToggleFlipsFocus` | checkbox-ng/checkbox_ng/urwid_ui.py:95-99 | space flips the focused node's flag whatever redraws fail |
| `Propagation.ToggleSetsSubtree` | checkbox-ng/checkbox_ng/urwid_ui.py:95-99 | with no failing redraw below the focus, every node below it ends with the focus's new flag |
| `Propagation.ToggleOnRaisesAncestors` | checkbox-ng/checkbox_ng/urwid_ui.py:95-123 | whatever redraws below it fail, flagging a node flags all its ancestors and leaves every node outside its path and subtree unchanged |
| `Propagation.ToggleOffClearsUpward` | checkbox-ng/checkbox_ng/urwid_ui.py:95-134 | whatever redraws below it fail, unflagging a node clears ancestors (and their children read unflagged) up to the first with a flagged child and leaves everything else outside the subtree unchanged |
| `Propagation.ToggleStaysInTree` | checkbox-ng/checkbox_ng/urwid_ui.py:114-148 | space builds widgets only for nodes of the tree |
| `Consistency.AllFlaggedConsistent` | checkbox-ng/checkbox_ng/urwid_ui.py:43-44 | a session where everything reads flagged satisfies the parent-iff-some-child invariant |
| `Consistency.ToggleKeepsConsistent` | checkbox-ng/checkbox_ng/urwid_ui.py:94-148 | space keeps "a node with children is flagged iff one of its children is" when no redraw below the focus fails |
| `Sorting.SortBy` | checkbox-ng/checkbox_ng/urwid_ui.py:204-210 | `sorted` returns a permutation of its input ordered by the key under Python string order |
| `TreeBuild.FirstIndex` | checkbox-ng/checkbox_ng/urwid_ui.py:218-219 | `next(...)` picks the first entry whose id matches, and finds none exactly when no entry matches |
| `TreeBuild.JobsIn` | checkbox-ng/checkbox_ng/urwid_ui.py:208-210 | an id is listed exactly when some entry with that id is filed under the category |
| `TreeBuild.JobsInAppend` | checkbox-ng/checkbox_ng/urwid_ui.py:208-210 | the comprehension distributes over concatenation of the job list, so keys come in list order with nothing added or merged |
| `TreeBuild.JobsInSingle` | checkbox-ng/checkbox_ng/urwid_ui.py:208-210 | one entry contributes its id exactly once when filed under the category, and nothing otherwise |
| `TreeBuild.RootChildKeys` | checkbox-ng/checkbox_ng/urwid_ui.py:203-206 | the root's child keys are a permutation of the participating categories ordered by translated name |
| `TreeBuild.CategoryChildKeys` | checkbox-ng/checkbox_ng/urwid_ui.py:207-210 | a category's child keys are a permutation of the ids of its jobs in ascending order |
| `TreeBuild.Build` | checkbox-ng/checkbox_ng/urwid_ui.py:212-221 | the tree the nodes load is well formed (parents and child lists agree, depths step by one, jobs are leaves) with height 2 |
| `TreeBuild.BuildOrder` | checkbox-ng/checkbox_ng/urwid_ui.py:202-210 | categories appear in order of their displayed names and jobs in order of their ids, and the jobs under a category are exactly the entries filed under it |
| `TreeBuild.BuildJobNode` | checkbox-ng/checkbox_ng/urwid_ui.py:212-221 | a job is in the tree iff some entry files it under a participating category; its node hangs under that category and carries the first entry's summary |
| `Browser.Init` | checkbox-ng/checkbox_ng/urwid_ui.py:238-249 | after start-up every node reads flagged, the cache matches the job widgets, and the tree is consistent |
| `Browser.InitMaterialisesAll` | checkbox-ng/checkbox_ng/urwid_ui.py:249 | with no failing redraw, start-up builds a widget for every node and caches every job of the tree |
| `Browser.KeyPress` | checkbox-ng/checkbox_ng/urwid_ui.py:94-112 | space, `i`/`I` and enter on a category are consumed and every other key is returned; space flips the focused row's flag, only space moves flags, and only `i`/`I` flips the display mode |
| `Browser.DisplayText` | checkbox-ng/checkbox_ng/urwid_ui.py:164-169 | a job row shows its job id while `show_job_ids` is set and its summary otherwise |
| `Browser.CategoryLabel` | checkbox-ng/checkbox_ng/urwid_ui.py:181-186 | a category row's label ignores `show_job_ids`: "Categories" at the root, the category's translated name below it |
| `Browser.InfoKeySwapsLabels` | checkbox-ng/checkbox_ng/urwid_ui.py:103-110 | `i` makes each job row show the id instead of the summary or back, leaves category labels alone and moves no flag |
| `Browser.Step` | checkbox-ng/checkbox_ng/urwid_ui.py:272-274 | an event ends the loop exactly when `t`/`T` reaches `unhandled_input` from a live row, and only tree nodes get widgets |
| `Browser.SpacePressToggles` | checkbox-ng/checkbox_ng/urwid_ui.py:94-98 | space on a live row, delivered through the loop, is the toggle on that row (flip, downward pass, upward pass) and does not end the loop |
| `Browser.Loop` | checkbox-ng/checkbox_ng/urwid_ui.py:258-262 | the main loop only adds widgets for tree nodes and keeps the cache in step |
| `Browser.Finish` | checkbox-ng/checkbox_ng/urwid_ui.py:263-270 | the result is drawn from the cache, after which the cache and widgets are empty and only `show_job_ids` carries over |
| `Browser.FinishSelection` | checkbox-ng/checkbox_ng/urwid_ui.py:263-270 | the result is exactly the ids of the flagged job widgets (so never a category key) |
| `Browser.Run` | checkbox-ng/checkbox_ng/urwid_ui.py:258-270 | `run()` leaves an empty cache behind |
| `Browser.StepKeepsSettled` | checkbox-ng/checkbox_ng/urwid_ui.py:94-112 | with no failing redraws each event keeps every node materialised, the cache in step and the tree consistent |
| `Browser.LoopKeepsSettled` | checkbox-ng/checkbox_ng/urwid_ui.py:258-262 | the whole loop keeps that invariant |
| `Browser.RunSelection` | checkbox-ng/checkbox_ng/urwid_ui.py:238-270 | with no failing redraws the result is exactly the tree's jobs whose rows end flagged, and the final state is consistent |
| `Browser.RunSelectsAllByDefault` | checkbox-ng/checkbox_ng/urwid_ui.py:249 | with no key pressed every job of the tree is selected |
| `Browser.DefaultSelectionIsShownJobs` | checkbox-ng/checkbox_ng/urwid_ui.py:202-270 | from the job list: with no key pressed the result is exactly the jobs filed under a participating category |
| `PlanPicker.PyIndex` | checkbox-ng/checkbox_ng/urwid_ui.py:299 | Python indexing accepts `-n <= i < n` and counts negative indices from the end |
| `PlanPicker.Open` | checkbox-ng/checkbox_ng/urwid_ui.py:288-299 | buttons start off; a truthy pre-selection switches one on; `None` and 0 are ignored; an out-of-range index fails with `IndexError`; at most one button is on |
| `PlanPicker.Activate` | checkbox-ng/checkbox_ng/urwid_ui.py:291-294 | activating a radio button switches it on and every other button of the group off |
| `PlanPicker.ActivateAll` | checkbox-ng/checkbox_ng/urwid_ui.py:291-294 | after activations only the last activated button is on, and at most one is on throughout |
| `PlanPicker.Picked` | checkbox-ng/checkbox_ng/urwid_ui.py:313-317 | the result is the first button that is on, or `None` exactly when none is |
| `PlanPicker.Pick` | checkbox-ng/checkbox_ng/urwid_ui.py:276-317 | a returned index is a valid button, and `None` comes back only when the user activated nothing |
| `PlanPicker.PickLastActivated` | checkbox-ng/checkbox_ng/urwid_ui.py:313-317 | the picker returns the last activated plan whatever the pre-selection |
| `PlanPicker.PickWithoutActivation` | checkbox-ng/checkbox_ng/urwid_ui.py:298-317 | without activations the pre-selected plan comes back (Python-resolved), `None`/0 give `None`, and an out-of-range index raises |
| `PlanPicker.FirstPlanNotPreselected` | checkbox-ng/checkbox_ng/urwid_ui.py:298-299 | pre-selecting index 0 yields no plan while `-n` yields plan 0 |

## Left out

- Rendering and layout are not modelled because they never touch `flagged`:
  `get_indented_widget`, the attribute and widget-list updates in `update_w`,
  `update_expanded_icon`, palettes, and the `Columns`/`Padding`/`Frame`/`LineBox`
  construction.
- The expand/collapse state is not modelled. Enter on a category and a mouse
  click on the expand icon only flip `expanded`, which is presentation.
  `KeyPress` treats enter on a category as consumed with no state change, and
  `mouse_event` is left out.
- The `i`/`I` handler also re-pads every cached row's label widget. That is
  presentation: the label itself is `DisplayText` of the new `show_job_ids`.
- Keys that urwid's `TreeWidget.keypress` consumes before `unhandled_keys` are
  not modelled. These are focus movement and `+`/`-` expansion; urwid's code
  is not part of this model, and they change no flag.
- `urwid.MainLoop` is not modelled. The loop is a finite list of events
  (`Browser.Event`), and when the list runs out without `t`/`T`, `Loop` simply
  stops.
- Drawing a row is modelled only by its effect. It builds the row's widget
  (`Browser.Event.Reveal`); which rows urwid draws, and when, is left to the
  event list.
- Only the downward pass can fail. `Tree.failing` is consulted only for child
  redraws in that pass, where the source catches `AttributeError`. An
  `AttributeError` from the focused widget's own final `update_w`, or from an
  ancestor's `update_w` in `set_ancestors_state`, is uncaught in the source and
  would abort the key handler. The model assumes those redraws succeed.
- Building a widget is assumed never to fail. `FlagUnitWidget.__init__` calls
  `update_w` itself (line 48), outside any `try`. A node in `Tree.failing`
  fails only the caught redraw in `set_descendants_state` (line 145). Its
  widget can still be built by `get_widget()` from that loop, from `any(...)`
  or the ancestor loop in `set_ancestors_state`, or by drawing its row
  (`Browser.Event.Reveal`). In the model that build never raises, even for a
  node in `Tree.failing`.
- Consistency is proved only without failing redraws.
  - `Consistency.ToggleKeepsConsistent` and `Browser.RunSelection` assume that
    no redraw below the focus (respectively, anywhere) fails.
  - With failures, the downward pass stops part-way. Its exact effect is stated
    by `Propagation.SetDescendantsStopsAtFailure`.
- The session-access object and gettext are foreign calls: `sa.get_job`,
  `get_static_todo_list`, `get_job_state(...).effective_category_id`,
  `get_participating_categories`, `get_category(...).tr_name()`, `tr_summary()`.
  Their results are inputs: a `JobInfo` list and a `Category` list.
- `TreeBuild.Build` requires `OneCategoryPerJob`: all entries with the same job
  id name the same category. The source reads the category from the job's
  state, which is one per id.
- `TreeBuild.Build` keeps one node per id. A job id listed twice under a
  category yields the same node twice in that category's child list, as
  urwid's per-key child cache does.
- A leftover `_widget_cache` is not modelled. If a browser is built but its
  `run()` never finishes, its cache entries would leak into the next browser.
  `Browser.Init` starts from an empty widget state and empty cache.
- `Sorting.SortBy` does not state stability. It is a stable insertion sort,
  like Python's `sorted`, but only the permutation and the ordering are
  proved; equal translated category names keep their participating order
  without a proof of it.
- `TreeBuild.RootChildKeys` inherits the unstated stability of `Sorting.SortBy`:
  the order of categories with equal translated names is not stated.
- `TreeBuild.BuildOrder` likewise leaves the order of root children with equal
  displayed names unstated.
- In the plan picker, activation stands in for a click. The "activate button
  j" step is urwid's `RadioButton` behaviour (switch on, switch the rest of the
  group off). urwid's code is not part of this model.
- The removal of `enter` from the picker frame's command map is not modelled.
  It only routes `enter` to the exit handler.

=== FILE: browser.dfy ===
/**
 * `CategoryBrowser` as a whole: building the widgets at start-up, the keys a
 * focused row reacts to, the main loop as a finite list of events, and the
 * selection `run()` returns.
 */
module Browser {
  import opened Wrappers
  import opened CategoryTree
  import opened Widgets
  import opened Propagation
  import opened Consistency
  import TreeBuild

  /**
   * `get_display_text`: a job row shows its key (the job id) while
   * `show_job_ids` is set and its value (the summary) otherwise; a category
   * row shows "Categories" at the root and the category's name elsewhere.
   */
  function DisplayText(t: Tree, n: NodeId, showIds: bool): (text: string)
    requires n in t.nodes
    ensures n.JobId? && showIds ==> text == n.job
    ensures n.JobId? && !showIds ==> text == t.nodes[n].name
  {
    if n.JobId? then (if showIds then n.job else t.nodes[n].name)
    else if t.nodes[n].depth == 0 then "Categories"
    else t.nodes[n].name
  }

  /**
   * `CategoryBrowser.__init__` on a fresh session: the root's widget is built
   * and `set_descendants_state(True)` runs from it. `showIds` is the
   * module-level `show_job_ids`, which survives from earlier browsers.
   */
  function Init(t: Tree, showIds: bool): (s: Session)
    requires WellFormed(t)
    ensures CacheOk(s) && t.root in s.widgets && s.showIds == showIds
    ensures forall n {:trigger Flagged(s, n)} :: Flagged(s, n)
    ensures Consistent(t, s)
  {
    var s0 := GetWidget(Session(map[], {}, showIds), t.root);
    var s := SetDescendants(t, s0, t.root, true);
    SetDescendantsMarksReach(t, s0, t.root, true);
    AllFlaggedConsistent(t, s);
    s
  }

  /** When no redraw fails, start-up builds a widget for every node and caches every job. */
  lemma InitMaterialisesAll(t: Tree, showIds: bool)
    requires WellFormed(t) && t.failing == {}
    ensures var s := Init(t, showIds);
      && s.widgets.Keys == t.nodes.Keys
      && forall id :: id in s.cache <==> JobId(id) in t.nodes
  {
    var s0 := GetWidget(Session(map[], {}, showIds), t.root);
    var s := SetDescendants(t, s0, t.root, true);
    assert Init(t, showIds) == s;
    MaterialisesAll(t, s0);
    forall id ensures id in s.cache <==> JobId(id) in t.nodes {
      assert id in s.cache <==> JobId(id) in s.widgets;
    }
  }

  /** Without failures, the downward pass from the root builds a widget for every node. */
  lemma MaterialisesAll(t: Tree, s0: Session)
    requires WellFormed(t) && t.failing == {} && s0.widgets.Keys == {t.root}
    ensures SetDescendants(t, s0, t.root, true).widgets.Keys == t.nodes.Keys
  {
    SetDescendantsAll(t, s0, t.root, true);
    forall n | n in t.nodes && n != t.root ensures Below(t, t.root, n) {
      AllBelowRoot(t, n);
    }
    assert forall n :: n in s0.widgets <==> n == t.root by {
      forall n ensures n in s0.widgets <==> n in s0.widgets.Keys {
      }
    }
  }

  /**
   * `keypress` on the focused row `k`, for keys the tree widget passes on:
   * space toggles, enter on a category only folds it (presentation, not
   * modelled), `i`/`I` flips `show_job_ids`; any other key is returned
   * unhandled.
   */
  function KeyPress(t: Tree, s: Session, k: NodeId, key: string): (r: (Session, Option<string>))
    requires WellFormed(t) && k in t.nodes && k in s.widgets
    ensures r.1.None? <==> key == " " || key == "i" || key == "I" || (key == "enter" && !IsLeaf(k))
    ensures r.1.Some? ==> r.1.value == key && r.0 == s
    ensures key != " " ==> r.0.widgets == s.widgets && r.0.cache == s.cache
    ensures r.0.showIds == (if key == "i" || key == "I" then !s.showIds else s.showIds)
    ensures s.widgets.Keys <= r.0.widgets.Keys <= s.widgets.Keys + t.nodes.Keys
    ensures CacheOk(s) ==> CacheOk(r.0)
    ensures key == " " ==> Flagged(r.0, k) == !Flagged(s, k)
  {
    if key == " " then
      ToggleStaysInTree(t, s, k);
      ToggleFlipsFocus(t, s, k);
      (Toggle(t, s, k), None)
    else if !IsLeaf(k) && key == "enter" then (s, None)
    else if key == "i" || key == "I" then (s.(showIds := !s.showIds), None)
    else (s, Some(key))
  }

  /** After `i`, every job row shows what it did not show before; no flag moves. */
  lemma InfoKeySwapsLabels(t: Tree, s: Session, k: NodeId, n: NodeId)
    requires WellFormed(t) && k in t.nodes && k in s.widgets && n in t.nodes
    ensures var r := KeyPress(t, s, k, "i").0;
      && r.widgets == s.widgets
      && (n.JobId? ==> DisplayText(t, n, r.showIds) == (if s.showIds then t.nodes[n].name else n.job))
      && (!n.JobId? ==> DisplayText(t, n, r.showIds) == DisplayText(t, n, s.showIds))
  {
  }

  /**
   * A category row's label does not depend on `show_job_ids`: the root shows
   * "Categories" and every other category its name.
   */
  lemma CategoryLabel(t: Tree, n: NodeId, showIds: bool)
    requires WellFormed(t) && n in t.nodes && !n.JobId?
    ensures DisplayText(t, n, showIds) == DisplayText(t, n, !showIds)
    ensures n == t.root ==> DisplayText(t, n, showIds) == "Categories"
    ensures n != t.root ==> DisplayText(t, n, showIds) == t.nodes[n].name
  {
    if n != t.root {
      var q := t.nodes[n].parent.value;
      assert t.nodes[n].depth == t.nodes[q].depth + 1;
    }
  }

  /**
   * What reaches the browser while its loop runs: a key pressed on the
   * focused row, or urwid drawing a row (which builds its widget).
   */
  datatype Event = Press(focus: NodeId, key: string) | Reveal(node: NodeId)

  /**
   * One event. A key the row does not handle goes to `unhandled_input`,
   * which ends the loop on `t`/`T`. Events naming no live row are ignored.
   */
  function Step(t: Tree, s: Session, e: Event): (r: (Session, bool))
    requires WellFormed(t)
    ensures r.1 <==> e.Press? && e.key in {"t", "T"} && e.focus in t.nodes && e.focus in s.widgets
    ensures s.widgets.Keys <= r.0.widgets.Keys <= s.widgets.Keys + t.nodes.Keys
    ensures CacheOk(s) ==> CacheOk(r.0)
  {
    match e
    case Reveal(n) =>
      if n in t.nodes then (GetWidget(s, n), false) else (s, false)
    case Press(k, key) =>
      if k in t.nodes && k in s.widgets then
        var r := KeyPress(t, s, k, key);
        (r.0, r.1 == Some("t") || r.1 == Some("T"))
      else (s, false)
  }

  /**
   * Space pressed on a live row of the tree is exactly the toggle on that row,
   * and the loop goes on; so every property of `Toggle` holds for such a step.
   */
  lemma SpacePressToggles(t: Tree, s: Session, k: NodeId)
    requires WellFormed(t) && k in t.nodes && k in s.widgets
    ensures Step(t, s, Press(k, " ")) == (Toggle(t, s, k), false)
  {
  }

  /** The main loop over a finite event list: it stops at the event that exits, or when the events run out. */
  function Loop(t: Tree, s: Session, es: seq<Event>): (r: Session)
    requires WellFormed(t)
    ensures s.widgets.Keys <= r.widgets.Keys <= s.widgets.Keys + t.nodes.Keys
    ensures CacheOk(s) ==> CacheOk(r)
    decreases |es|
  {
    if es == [] then s
    else
      var st := Step(t, s, es[0]);
      if st.1 then st.0 else Loop(t, st.0, es[1..])
  }

  /**
   * The end of `run()`: the keys of the cached widgets that are flagged,
   * then a cleared cache. Only `show_job_ids` carries over to a later browser.
   */
  function Finish(s: Session): (r: (set<string>, Session))
    ensures r.0 <= s.cache
    ensures r.1 == Session(map[], {}, s.showIds) && CacheOk(r.1)
  {
    var selection := set id | id in s.cache && Flagged(s, JobId(id));
    (selection, Session(map[], {}, s.showIds))
  }

  /** With the cache in step with the widgets, the selection is exactly the flagged job widgets. */
  lemma FinishSelection(s: Session, id: string)
    requires CacheOk(s)
    ensures id in Finish(s).0 <==> JobId(id) in s.widgets && s.widgets[JobId(id)]
  {
    assert id in s.cache <==> JobId(id) in s.widgets;
  }

  /** `CategoryBrowser(...)` followed by `run()`. */
  function Run(t: Tree, showIds: bool, es: seq<Event>): (r: (set<string>, Session))
    requires WellFormed(t)
    ensures r.1.cache == {} && r.1.widgets == map[]
  {
    Finish(Loop(t, Init(t, showIds), es))
  }

  /** The invariant of a session whose tree has no failing redraws. */
  ghost predicate Settled(t: Tree, s: Session)
    requires WellFormed(t)
  {
    s.widgets.Keys == t.nodes.Keys && CacheOk(s) && Consistent(t, s)
  }

  /** Every event keeps a settled session settled. */
  lemma StepKeepsSettled(t: Tree, s: Session, e: Event)
    requires WellFormed(t) && t.failing == {} && Settled(t, s)
    ensures Settled(t, Step(t, s, e).0)
  {
    var r := Step(t, s, e).0;
    match e
    case Reveal(n) =>
      if n in t.nodes {
        assert forall m {:trigger Flagged(r, m)} :: Flagged(r, m) == Flagged(s, m);
      }
    case Press(k, key) =>
      if k in t.nodes && k in s.widgets && key == " " {
        ToggleKeepsConsistent(t, s, k);
      }
  }

  /** The loop keeps a settled session settled. */
  lemma {:induction false} LoopKeepsSettled(t: Tree, s: Session, es: seq<Event>)
    requires WellFormed(t) && t.failing == {} && Settled(t, s)
    ensures Settled(t, Loop(t, s, es))
    decreases |es|
  {
    if es != [] {
      StepKeepsSettled(t, s, es[0]);
      var st := Step(t, s, es[0]);
      if !st.1 {
        LoopKeepsSettled(t, st.0, es[1..]);
      }
    }
  }

  /**
   * When no redraw fails, `run()` returns exactly the jobs of the tree whose
   * rows are flagged when the loop ends, and at that point every category
   * with children is flagged iff one of its children is.
   */
  lemma RunSelection(t: Tree, showIds: bool, es: seq<Event>)
    requires WellFormed(t) && t.failing == {}
    ensures var last := Loop(t, Init(t, showIds), es);
      && Consistent(t, last)
      && forall id :: id in Run(t, showIds, es).0 <==> JobId(id) in t.nodes && Flagged(last, JobId(id))
  {
    var s := Init(t, showIds);
    InitMaterialisesAll(t, showIds);
    LoopKeepsSettled(t, s, es);
    var last := Loop(t, s, es);
    forall id ensures id in Run(t, showIds, es).0 <==> JobId(id) in t.nodes && Flagged(last, JobId(id)) {
      FinishSelection(last, id);
    }
  }

  /** With no failing redraws and no key pressed, every job of the tree is selected. */
  lemma RunSelectsAllByDefault(t: Tree, showIds: bool)
    requires WellFormed(t) && t.failing == {}
    ensures forall id :: id in Run(t, showIds, []).0 <==> JobId(id) in t.nodes
  {
    RunSelection(t, showIds, []);
  }

  /**
   * From the job list to the result: with no failing redraws and no key
   * pressed, the browser returns exactly the jobs filed under a
   * participating category.
   */
  lemma DefaultSelectionIsShownJobs(jobs: seq<TreeBuild.JobInfo>, cats: seq<TreeBuild.Category>, showIds: bool, id: string)
    requires TreeBuild.OneCategoryPerJob(jobs)
    ensures var t := TreeBuild.Build(jobs, cats, {});
      id in Run(t, showIds, []).0 <==> TreeBuild.Shown(jobs, cats, id)
  {
    var t := TreeBuild.Build(jobs, cats, {});
    RunSelectsAllByDefault(t, showIds);
    TreeBuild.BuildJobNode(jobs, cats, {}, id);
  }
}

=== FILE: category_tree.dfy ===
/**
 * The shape of the category -> job tree the browser shows, as an arena: every
 * node is stored under its id with its parent id, its ordered child ids, its
 * depth and its label. The shape never changes during a session; the
 * selection flags live in the widget state (module Widgets).
 */
module CategoryTree {
  import opened Wrappers

  /**
   * Node identity. The root has no key of its own; categories and jobs are
   * keyed by their ids. Separate constructors keep a category id that happens
   * to equal a job id apart, as the source's distinct node objects do.
   */
  datatype NodeId = RootId | CategoryId(category: string) | JobId(job: string)

  /** One node: parent id, ordered child ids, depth (0 at the root), label value. */
  datatype Node = Node(parent: Option<NodeId>, children: seq<NodeId>, depth: nat, name: string)

  /**
   * The arena. `height` bounds every depth. `failing` holds the nodes whose
   * widget redraw raises `AttributeError`; the source does not say when that
   * happens, so the model takes it as given.
   */
  datatype Tree = Tree(nodes: map<NodeId, Node>, root: NodeId, height: nat, failing: set<NodeId>)

  /** Job nodes are the leaves; category nodes (and the root) are parents even when empty. */
  predicate IsLeaf(k: NodeId)
  {
    k.JobId?
  }

  /** Parent and child links agree, depths step by one, leaves have no children. */
  ghost predicate WellFormed(t: Tree)
  {
    && t.root in t.nodes
    && t.nodes[t.root].parent == None
    && t.nodes[t.root].depth == 0
    && (forall n {:trigger t.nodes[n].depth} | n in t.nodes :: t.nodes[n].depth <= t.height)
    && (forall n {:trigger t.nodes[n].parent} | n in t.nodes ::
          match t.nodes[n].parent
          case None => n == t.root
          case Some(q) =>
            && q in t.nodes
            && t.nodes[q].depth + 1 == t.nodes[n].depth
            && n in t.nodes[q].children)
    && (forall n, i {:trigger t.nodes[n].children[i]} | n in t.nodes && 0 <= i < |t.nodes[n].children| ::
          && t.nodes[n].children[i] in t.nodes
          && t.nodes[t.nodes[n].children[i]].parent == Some(n))
    && (forall n {:trigger t.nodes[n].children} | n in t.nodes && IsLeaf(n) :: t.nodes[n].children == [])
  }

  /** Children sit one level below their parent. */
  lemma ChildDepth(t: Tree, n: NodeId, c: NodeId)
    requires WellFormed(t) && n in t.nodes && c in t.nodes[n].children
    ensures c in t.nodes && t.nodes[c].parent == Some(n)
    ensures t.nodes[c].depth == t.nodes[n].depth + 1
  {
    var i :| 0 <= i < |t.nodes[n].children| && t.nodes[n].children[i] == c;
  }

  /** The ancestors of `n`, nearest first: its parent, its grandparent, ..., the root. */
  function Path(t: Tree, n: NodeId): (p: seq<NodeId>)
    requires WellFormed(t) && n in t.nodes
    ensures |p| == t.nodes[n].depth
    ensures forall i | 0 <= i < |p| :: p[i] in t.nodes && t.nodes[p[i]].depth == t.nodes[n].depth - 1 - i
    ensures |p| > 0 ==> p[|p| - 1] == t.root
    decreases t.nodes[n].depth
  {
    match t.nodes[n].parent
    case None => []
    case Some(q) => [q] + Path(t, q)
  }

  /** The ancestors of `n` as a set. */
  ghost function AncestorSet(t: Tree, n: NodeId): (a: set<NodeId>)
    requires WellFormed(t) && n in t.nodes
    ensures forall m :: m in a <==> m in Path(t, n)
  {
    set m | m in Path(t, n)
  }

  /** The ancestors of a non-root node are its parent and the parent's ancestors. */
  lemma AncestorSetStep(t: Tree, n: NodeId)
    requires WellFormed(t) && n in t.nodes && t.nodes[n].parent.Some?
    ensures t.nodes[n].parent.value in t.nodes
    ensures AncestorSet(t, n) == {t.nodes[n].parent.value} + AncestorSet(t, t.nodes[n].parent.value)
  {
    var q := t.nodes[n].parent.value;
    assert Path(t, n) == [q] + Path(t, q);
  }

  /** Each path element's parent is the next element; the first is `n`'s parent. */
  lemma {:induction false} PathLinks(t: Tree, n: NodeId)
    requires WellFormed(t) && n in t.nodes
    ensures Path(t, n) != [] ==> t.nodes[n].parent == Some(Path(t, n)[0])
    ensures Path(t, n) == [] ==> n == t.root
    ensures forall i | 0 <= i < |Path(t, n)| - 1 :: t.nodes[Path(t, n)[i]].parent == Some(Path(t, n)[i + 1])
    decreases t.nodes[n].depth
  {
    match t.nodes[n].parent
    case None =>
    case Some(q) =>
      PathLinks(t, q);
      var p := Path(t, n);
      assert p == [q] + Path(t, q);
      forall i | 0 <= i < |p| - 1
        ensures t.nodes[p[i]].parent == Some(p[i + 1])
      {
        if i > 0 {
          assert p[i] == Path(t, q)[i - 1];
        }
      }
  }

  /** A node is never its own ancestor, nor is any node below it. */
  lemma NotOnOwnPath(t: Tree, n: NodeId, m: NodeId)
    requires WellFormed(t) && n in t.nodes && m in t.nodes
    requires t.nodes[m].depth >= t.nodes[n].depth
    ensures m !in Path(t, n)
  {
  }

  /** Two ancestors of one node at the same depth are the same node. */
  lemma PathUniqueAtDepth(t: Tree, n: NodeId, a: NodeId, b: NodeId)
    requires WellFormed(t) && n in t.nodes
    requires a in Path(t, n) && b in Path(t, n)
    requires t.nodes[a].depth == t.nodes[b].depth
    ensures a == b
  {
    var p := Path(t, n);
    var i :| 0 <= i < |p| && p[i] == a;
    var j :| 0 <= j < |p| && p[j] == b;
  }

  /** `n` is a strict descendant of `k`. */
  ghost predicate Below(t: Tree, k: NodeId, n: NodeId)
    requires WellFormed(t)
  {
    n in t.nodes && k in Path(t, n)
  }

  /** A child's ancestors are its parent followed by the parent's ancestors. */
  lemma PathOfChild(t: Tree, p: NodeId, c: NodeId)
    requires WellFormed(t) && p in t.nodes && c in t.nodes[p].children
    ensures c in t.nodes && Path(t, c) == [p] + Path(t, p)
  {
    ChildDepth(t, p, c);
  }

  /** A node below a child of `k` is below `k`; a child of `k` is below `k`. */
  lemma BelowChild(t: Tree, k: NodeId, c: NodeId)
    requires WellFormed(t) && k in t.nodes && c in t.nodes[k].children
    ensures Below(t, k, c)
    ensures forall n | Below(t, c, n) :: Below(t, k, n)
  {
    PathOfChild(t, k, c);
    forall n | Below(t, c, n) ensures Below(t, k, n) {
      var p := Path(t, n);
      var i :| 0 <= i < |p| && p[i] == c;
      PathLinks(t, n);
      assert i + 1 < |p|;
      assert p[i + 1] == k;
    }
  }

  /** The parent of a node below `k` is `k` itself or is below `k`. */
  lemma BelowParent(t: Tree, k: NodeId, n: NodeId)
    requires WellFormed(t) && Below(t, k, n)
    ensures t.nodes[n].parent.Some?
    ensures var q := t.nodes[n].parent.value; q == k || Below(t, k, q)
  {
    PathLinks(t, n);
  }

  /** Past position `i`, a path continues as the path of its `i`-th element. */
  lemma {:induction false} PathTail(t: Tree, n: NodeId, i: nat)
    requires WellFormed(t) && n in t.nodes && i < |Path(t, n)|
    ensures Path(t, n)[i + 1..] == Path(t, Path(t, n)[i])
    decreases i
  {
    var q := t.nodes[n].parent.value;
    assert Path(t, n) == [q] + Path(t, q);
    if i > 0 {
      PathTail(t, q, i - 1);
    }
  }

  /** "Below" is transitive. */
  lemma BelowTransitive(t: Tree, a: NodeId, b: NodeId, c: NodeId)
    requires WellFormed(t) && Below(t, a, b) && Below(t, b, c)
    ensures Below(t, a, c)
  {
    var p := Path(t, c);
    var i :| 0 <= i < |p| && p[i] == b;
    PathTail(t, c, i);
    assert a in p[i + 1..];
  }

  /** Every node other than the root lies below it. */
  lemma AllBelowRoot(t: Tree, n: NodeId)
    requires WellFormed(t) && n in t.nodes && n != t.root
    ensures Below(t, t.root, n)
  {
    var p := Path(t, n);
    assert t.nodes[n].parent.Some?;
    assert |p| > 0;
    assert p[|p| - 1] == t.root;
  }
}

=== FILE: consistency.dfy ===
/**
 * The selection invariant the two propagation passes keep together: a node
 * with children is flagged exactly when at least one of its children is.
 * Childless categories are unconstrained (space may flip them freely).
 */
module Consistency {
  import opened Wrappers
  import opened CategoryTree
  import opened Widgets
  import opened Propagation

  /** Every node with children is flagged iff some child is flagged. */
  ghost predicate Consistent(t: Tree, s: Session)
    requires WellFormed(t)
  {
    forall p | p in t.nodes && t.nodes[p].children != [] ::
      Flagged(s, p) <==> exists c | c in t.nodes[p].children :: Flagged(s, c)
  }

  /** A session where every node reads as flagged is consistent. */
  lemma AllFlaggedConsistent(t: Tree, s: Session)
    requires WellFormed(t)
    requires forall n {:trigger Flagged(s, n)} :: Flagged(s, n)
    ensures Consistent(t, s)
  {
    forall p | p in t.nodes && t.nodes[p].children != []
      ensures Flagged(s, p) <==> exists c | c in t.nodes[p].children :: Flagged(s, c)
    {
      assert Flagged(s, t.nodes[p].children[0]);
    }
  }

  /** Consistency at `p` survives when neither `p` nor any child of `p` changed. */
  lemma ConsistentAtUnchanged(t: Tree, s: Session, r: Session, p: NodeId)
    requires WellFormed(t) && Consistent(t, s) && p in t.nodes && t.nodes[p].children != []
    requires Flagged(r, p) == Flagged(s, p)
    requires forall c | c in t.nodes[p].children :: Flagged(r, c) == Flagged(s, c)
    ensures Flagged(r, p) <==> exists c | c in t.nodes[p].children :: Flagged(r, c)
  {
  }

  /** No ancestor of `k` has `p` as its parent when `p` is not itself an ancestor. */
  lemma ParentNotOnPath(t: Tree, k: NodeId, p: NodeId)
    requires WellFormed(t) && k in t.nodes && p !in Path(t, k)
    ensures forall m | 0 <= m < |Path(t, k)| :: t.nodes[Path(t, k)[m]].parent != Some(p)
  {
    PathLinks(t, k);
    var P := Path(t, k);
    forall m | 0 <= m < |P| ensures t.nodes[P[m]].parent != Some(p) {
      if m + 1 < |P| {
        assert t.nodes[P[m]].parent == Some(P[m + 1]);
      } else {
        assert P[m] == t.root;
      }
    }
  }

  /** A child of a node off `k`'s path and outside `k`'s subtree is not `k`, not below it and not an ancestor. */
  lemma ChildOfNonPath(t: Tree, k: NodeId, p: NodeId, c: NodeId)
    requires WellFormed(t) && k in t.nodes && p in t.nodes && c in t.nodes[p].children
    requires p != k && !Below(t, k, p) && p !in Path(t, k)
    ensures c != k && !Below(t, k, c) && c !in Path(t, k)
  {
    ChildDepth(t, p, c);
    PathLinks(t, k);
    ParentNotOnPath(t, k, p);
    if Below(t, k, c) {
      BelowParent(t, k, c);
    }
  }

  /** The flag facts of space on `k` that flags it: the subtree and the ancestors end up flagged. */
  ghost predicate RaiseFacts(t: Tree, s: Session, r: Session, k: NodeId)
    requires WellFormed(t) && k in t.nodes
  {
    && Flagged(r, k)
    && (forall n | Below(t, k, n) :: Flagged(r, n))
    && (forall n | n in Path(t, k) :: Flagged(r, n))
    && (forall n {:trigger Flagged(r, n)} | n != k && !Below(t, k, n) && n !in Path(t, k) ::
          Flagged(r, n) == Flagged(s, n))
  }

  /**
   * The flag facts of space on `k` that unflags it, with the climb stopping
   * at ancestor level `j` (`j == |Path(t, k)|` when it cleared up to the root).
   */
  ghost predicate ClearFacts(t: Tree, s: Session, r: Session, k: NodeId, j: nat)
    requires WellFormed(t) && k in t.nodes
  {
    var P := Path(t, k);
    && !Flagged(r, k)
    && (forall n | Below(t, k, n) :: !Flagged(r, n))
    && j <= |P|
    && (forall i | 0 <= i < j ::
          !Flagged(r, P[i]) && forall c | c in t.nodes[P[i]].children :: !Flagged(r, c))
    && (j < |P| ==> exists c | c in t.nodes[P[j]].children :: Flagged(r, c))
    && (forall n {:trigger Flagged(r, n)} | n != k && !Below(t, k, n) && n !in P[..j] ::
          Flagged(r, n) == Flagged(s, n))
  }

  /** Every child of `p` in `k`'s subtree (or of `k` itself) carries the subtree's flag. */
  lemma SubtreeChildren(t: Tree, r: Session, k: NodeId, p: NodeId, v: bool)
    requires WellFormed(t) && k in t.nodes && p in t.nodes && (p == k || Below(t, k, p))
    requires forall n | Below(t, k, n) :: Flagged(r, n) == v
    ensures forall c | c in t.nodes[p].children :: Flagged(r, c) == v
  {
    forall c | c in t.nodes[p].children ensures Flagged(r, c) == v {
      BelowChild(t, p, c);
      if p != k {
        BelowTransitive(t, k, p, c);
      }
    }
  }

  /** Consistency at one node `p` after `k` and its ancestors were raised. */
  lemma ConsistentAfterRaise(t: Tree, s: Session, r: Session, k: NodeId, p: NodeId)
    requires WellFormed(t) && k in t.nodes && Consistent(t, s) && RaiseFacts(t, s, r, k)
    requires p in t.nodes && t.nodes[p].children != []
    ensures Flagged(r, p) <==> exists c | c in t.nodes[p].children :: Flagged(r, c)
  {
    var P := Path(t, k);
    var cs := t.nodes[p].children;
    if p == k || Below(t, k, p) {
      SubtreeChildren(t, r, k, p, true);
      assert Flagged(r, cs[0]);
    } else if p in P {
      PathLinks(t, k);
      var i :| 0 <= i < |P| && P[i] == p;
      var c := if i == 0 then k else P[i - 1];
      assert t.nodes[c].parent == Some(p);
      assert c in cs;
      assert Flagged(r, c);
    } else {
      forall c | c in cs ensures Flagged(r, c) == Flagged(s, c) {
        ChildOfNonPath(t, k, p, c);
      }
      ConsistentAtUnchanged(t, s, r, p);
    }
  }

  /** Consistency at the ancestor where the clearing climb stopped. */
  lemma ConsistentAtStop(t: Tree, s: Session, r: Session, k: NodeId, j: nat)
    requires WellFormed(t) && k in t.nodes && Consistent(t, s) && ClearFacts(t, s, r, k, j)
    requires j < |Path(t, k)|
    ensures var p := Path(t, k)[j];
      Flagged(r, p) <==> exists c | c in t.nodes[p].children :: Flagged(r, c)
  {
    var P := Path(t, k);
    var p := P[j];
    var c :| c in t.nodes[p].children && Flagged(r, c);
    ChildDepth(t, p, c);
    assert !Below(t, k, c) by {
      if Below(t, k, c) {
        BelowIsDeeper(t, k, c);
      }
    }
    assert !Below(t, k, p) by {
      BelowNotAncestor(t, k);
    }
    NotOnOwnPath(t, k, k);
    assert c !in P[..j];
    assert p !in P[..j];
    assert Flagged(s, c);
  }

  /** A child of an ancestor above the stop level kept its flag. */
  lemma AboveStopChild(t: Tree, s: Session, r: Session, k: NodeId, j: nat, i: nat, c: NodeId)
    requires WellFormed(t) && k in t.nodes && ClearFacts(t, s, r, k, j)
    requires j < i < |Path(t, k)| && c in t.nodes[Path(t, k)[i]].children
    ensures Flagged(r, c) == Flagged(s, c)
  {
    var P := Path(t, k);
    ChildDepth(t, P[i], c);
    assert c != k;
    assert !Below(t, k, c) by {
      if Below(t, k, c) {
        BelowIsDeeper(t, k, c);
      }
    }
    assert c !in P[..j] by {
      forall m | 0 <= m < j ensures P[m] != c {
        PathLinks(t, k);
        assert t.nodes[P[m]].parent == Some(P[m + 1]);
      }
    }
  }

  /** Consistency at an ancestor above the level where the clearing climb stopped. */
  lemma ConsistentAboveStop(t: Tree, s: Session, r: Session, k: NodeId, j: nat, i: nat)
    requires WellFormed(t) && k in t.nodes && Consistent(t, s) && ClearFacts(t, s, r, k, j)
    requires j < i < |Path(t, k)|
    ensures var p := Path(t, k)[i];
      Flagged(r, p) <==> exists c | c in t.nodes[p].children :: Flagged(r, c)
  {
    var P := Path(t, k);
    var p := P[i];
    assert p != k by {
      NotOnOwnPath(t, k, k);
    }
    assert !Below(t, k, p) by {
      BelowNotAncestor(t, k);
    }
    assert p !in P[..j] by {
      forall m | 0 <= m < j ensures P[m] != p {
        assert t.nodes[P[m]].depth != t.nodes[P[i]].depth;
      }
    }
    assert Flagged(r, p) == Flagged(s, p);
    assert P[i - 1] in t.nodes[p].children by {
      PathLinks(t, k);
    }
    forall c | c in t.nodes[p].children ensures Flagged(r, c) == Flagged(s, c) {
      AboveStopChild(t, s, r, k, j, i, c);
    }
    ConsistentAtUnchanged(t, s, r, p);
  }

  /** Consistency at one node `p` after `k` was unflagged and the climb stopped at level `j`. */
  lemma ConsistentAfterClear(t: Tree, s: Session, r: Session, k: NodeId, j: nat, p: NodeId)
    requires WellFormed(t) && k in t.nodes && Consistent(t, s) && ClearFacts(t, s, r, k, j)
    requires p in t.nodes && t.nodes[p].children != []
    ensures Flagged(r, p) <==> exists c | c in t.nodes[p].children :: Flagged(r, c)
  {
    var P := Path(t, k);
    if p == k || Below(t, k, p) {
      SubtreeChildren(t, r, k, p, false);
    } else if p in P {
      var i :| 0 <= i < |P| && P[i] == p;
      if i == j {
        ConsistentAtStop(t, s, r, k, j);
      } else if i > j {
        ConsistentAboveStop(t, s, r, k, j, i);
      }
    } else {
      assert p !in P[..j];
      forall c | c in t.nodes[p].children ensures Flagged(r, c) == Flagged(s, c) {
        ChildOfNonPath(t, k, p, c);
      }
      ConsistentAtUnchanged(t, s, r, p);
    }
  }

  /** Space on an unflagged node establishes the raise facts. */
  lemma ToggleRaiseFacts(t: Tree, s: Session, k: NodeId)
    requires WellFormed(t) && k in t.nodes && k in s.widgets && !s.widgets[k]
    requires forall m | Below(t, k, m) :: m !in t.failing
    ensures RaiseFacts(t, s, Toggle(t, s, k), k)
  {
    ToggleSetsSubtree(t, s, k);
    ToggleOnRaisesAncestors(t, s, k);
  }

  /** Space on a flagged node establishes the clear facts for some stop level. */
  lemma ToggleClearFacts(t: Tree, s: Session, k: NodeId) returns (j: nat)
    requires WellFormed(t) && k in t.nodes && k in s.widgets && s.widgets[k]
    requires forall m | Below(t, k, m) :: m !in t.failing
    ensures ClearFacts(t, s, Toggle(t, s, k), k, j)
  {
    ToggleSetsSubtree(t, s, k);
    j := ToggleOffClearsUpward(t, s, k);
  }

  /** Space keeps the tree consistent, provided no redraw below the focused node fails. */
  lemma ToggleKeepsConsistent(t: Tree, s: Session, k: NodeId)
    requires WellFormed(t) && k in t.nodes && k in s.widgets
    requires forall m | Below(t, k, m) :: m !in t.failing
    requires Consistent(t, s)
    ensures Consistent(t, Toggle(t, s, k))
  {
    var r := Toggle(t, s, k);
    if !s.widgets[k] {
      ToggleRaiseFacts(t, s, k);
      forall p | p in t.nodes && t.nodes[p].children != []
        ensures Flagged(r, p) <==> exists c | c in t.nodes[p].children :: Flagged(r, c)
      {
        ConsistentAfterRaise(t, s, r, k, p);
      }
    } else {
      var j := ToggleClearFacts(t, s, k);
      forall p | p in t.nodes && t.nodes[p].children != []
        ensures Flagged(r, p) <==> exists c | c in t.nodes[p].children :: Flagged(r, c)
      {
        ConsistentAfterClear(t, s, r, k, j, p);
      }
    }
  }
}

=== FILE: plan_picker.dfy ===
/**
 * `TestPlanBrowser`: one radio button per test plan, an optional
 * pre-selection, the user's activations, and the index of the first button
 * left on (or none).
 */
module PlanPicker {
  import opened Wrappers

  /** `radio_button_group[selection]` with an index outside the list raises `IndexError`. */
  datatype PickError = IndexError

  /** How Python resolves `xs[i]` on a list of length `n`: negative indices count from the end. */
  function PyIndex(n: nat, i: int): (r: Option<nat>)
    ensures r.Some? <==> -(n as int) <= i < n
    ensures r.Some? ==> r.value < n && (if i >= 0 then r.value == i else r.value == n + i)
  {
    if 0 <= i < n then Some(i)
    else if -(n as int) <= i < 0 then Some(n + i)
    else None
  }

  /** At most one button of the group is on. */
  ghost predicate AtMostOne(states: seq<bool>)
  {
    forall i, j | 0 <= i < |states| && 0 <= j < |states| && states[i] && states[j] :: i == j
  }

  /** `n` buttons with only button `j` on. */
  function Only(n: nat, j: nat): (states: seq<bool>)
    requires j < n
    ensures |states| == n && AtMostOne(states)
    ensures forall i | 0 <= i < n :: states[i] <==> i == j
  {
    seq(n, i requires 0 <= i < n => i == j)
  }

  /**
   * The group right after construction: every button off, then the
   * pre-selection applied only when `selection` is truthy — `None` and `0`
   * leave the group untouched.
   */
  function Open(n: nat, selection: Option<int>): (r: Result<seq<bool>, PickError>)
    ensures r.Success? ==> |r.value| == n && AtMostOne(r.value)
    ensures r.Failure? <==> selection.Some? && selection.value != 0 && PyIndex(n, selection.value).None?
    ensures r.Success? ==> forall i | 0 <= i < n ::
      r.value[i] <==> (selection.Some? && selection.value != 0 && PyIndex(n, selection.value) == Some(i))
  {
    if selection.None? || selection.value == 0 then Success(seq(n, _ => false))
    else
      match PyIndex(n, selection.value)
      case None => Failure(IndexError)
      case Some(j) => Success(Only(n, j))
  }

  /**
   * The user activates button `j` (space or a click): a radio button can
   * only be switched on, and switching it on switches the others off.
   */
  function Activate(states: seq<bool>, j: nat): (r: seq<bool>)
    requires j < |states|
    ensures |r| == |states| && r[j] && AtMostOne(r)
    ensures forall i | 0 <= i < |r| && i != j :: !r[i]
  {
    Only(|states|, j)
  }

  /** The `next(... if i.state)` at the end: the first button that is on, or `None`. */
  function Picked(states: seq<bool>): (r: Option<nat>)
    ensures r.None? <==> forall i | 0 <= i < |states| :: !states[i]
    ensures r.Some? ==> r.value < |states| && states[r.value] && forall i | 0 <= i < r.value :: !states[i]
    decreases |states|
  {
    if states == [] then None
    else if states[0] then Some(0)
    else
      match Picked(states[1..])
      case None => None
      case Some(i) => Some(i + 1)
  }

  /** Applies the user's activations in order. */
  function ActivateAll(states: seq<bool>, clicks: seq<nat>): (r: seq<bool>)
    requires forall i | 0 <= i < |clicks| :: clicks[i] < |states|
    ensures |r| == |states|
    ensures AtMostOne(states) ==> AtMostOne(r)
    ensures clicks != [] ==> r == Only(|states|, clicks[|clicks| - 1])
    ensures clicks == [] ==> r == states
    decreases |clicks|
  {
    if clicks == [] then states
    else ActivateAll(Activate(states, clicks[0]), clicks[1..])
  }

  /** `TestPlanBrowser(title, plans, selection)` with the user's activations `clicks`. */
  function Pick(n: nat, selection: Option<int>, clicks: seq<nat>): (r: Result<Option<nat>, PickError>)
    requires forall i | 0 <= i < |clicks| :: clicks[i] < n
    ensures r.Success? && r.value.Some? ==> r.value.value < n
    ensures r.Success? && r.value.None? ==> clicks == []
  {
    match Open(n, selection)
    case Failure(e) => Failure(e)
    case Success(states) =>
      var last := ActivateAll(states, clicks);
      assert clicks != [] ==> last[clicks[|clicks| - 1]];
      Success(Picked(last))
  }

  /** The picker returns the button the user activated last, whatever the pre-selection. */
  lemma PickLastActivated(n: nat, selection: Option<int>, clicks: seq<nat>)
    requires forall i | 0 <= i < |clicks| :: clicks[i] < n
    requires clicks != [] && Open(n, selection).Success?
    ensures Pick(n, selection, clicks) == Success(Some(clicks[|clicks| - 1]))
  {
    var states := Open(n, selection).value;
    var last := clicks[|clicks| - 1];
    var r := ActivateAll(states, clicks);
    assert r[last];
    assert Picked(r).value == last by {
      var p := Picked(r).value;
      assert r[p];
    }
  }

  /**
   * Without activations, the pre-selected plan comes back, resolved Python
   * style; a pre-selection of `None` or `0` gives no plan at all, and one
   * out of range raises.
   */
  lemma PickWithoutActivation(n: nat, selection: Option<int>)
    ensures match selection
      case None => Pick(n, selection, []) == Success(None)
      case Some(i) =>
        if i == 0 then Pick(n, selection, []) == Success(None)
        else if PyIndex(n, i).None? then Pick(n, selection, []) == Failure(IndexError)
        else Pick(n, selection, []) == Success(PyIndex(n, i))
  {
    if selection.Some? && selection.value != 0 && PyIndex(n, selection.value).Some? {
      var j := PyIndex(n, selection.value).value;
      var states := Only(n, j);
      assert states[j];
      assert Picked(states).value == j by {
        assert states[Picked(states).value];
      }
    }
  }

  /** The first plan can never be pre-selected: index 0 behaves like no selection. */
  lemma FirstPlanNotPreselected(n: nat)
    requires n > 0
    ensures Pick(n, Some(0), []) == Success(None)
    ensures Pick(n, Some(-(n as int)), []) == Success(Some(0))
  {
    PickWithoutActivation(n, Some(0));
    PickWithoutActivation(n, Some(-(n as int)));
  }
}

=== FILE: propagation.dfy ===
/**
 * The selection-propagation engine of `FlagUnitWidget`: the downward pass
 * `set_descendants_state`, the upward pass `set_ancestors_state`, and the
 * space-key toggle that runs them one after the other.
 */
module Propagation {
  import opened Wrappers
  import opened CategoryTree
  import opened Widgets

  // ---------------------------------------------------------------------
  // Downward pass
  // ---------------------------------------------------------------------

  /**
   * `set_descendants_state(v)` on the widget of `k`: nothing for a leaf;
   * otherwise the loop over the child keys (VisitChildren).
   */
  function SetDescendants(t: Tree, s: Session, k: NodeId, v: bool): (r: Session)
    requires WellFormed(t) && k in t.nodes
    ensures s.widgets.Keys <= r.widgets.Keys
    ensures CacheOk(s) ==> CacheOk(r)
    ensures r.showIds == s.showIds
    decreases t.height - t.nodes[k].depth, 1, 0
  {
    if IsLeaf(k) then s
    else VisitChildren(t, s, k, t.nodes[k].children, v)
  }

  /**
   * The loop body for each remaining child key `c` of `p`, in order: fetch
   * its widget, set its flag, redraw it; a redraw that raises
   * `AttributeError` ends the whole loop, otherwise recurse into `c`.
   */
  function VisitChildren(t: Tree, s: Session, p: NodeId, cs: seq<NodeId>, v: bool): (r: Session)
    requires WellFormed(t) && p in t.nodes
    requires forall c | c in cs :: c in t.nodes[p].children
    ensures s.widgets.Keys <= r.widgets.Keys
    ensures CacheOk(s) ==> CacheOk(r)
    ensures r.showIds == s.showIds
    decreases t.height - t.nodes[p].depth, 0, |cs|
  {
    if cs == [] then s
    else
      var c := cs[0];
      ChildDepth(t, p, c);
      var s1 := SetFlag(GetWidget(s, c), c, v);
      if c in t.failing then s1
      else VisitChildren(t, SetDescendants(t, s1, c, v), p, cs[1..], v)
  }

  /**
   * Reference for the downward pass: the nodes it gives the new flag. Each
   * child of a non-leaf is reached up to and including the first one whose
   * redraw fails; the subtree of every child before that one is reached as well.
   */
  ghost function Reach(t: Tree, k: NodeId): (ns: set<NodeId>)
    requires WellFormed(t) && k in t.nodes
    decreases t.height - t.nodes[k].depth, 1, 0
  {
    if IsLeaf(k) then {}
    else ReachAll(t, k, t.nodes[k].children)
  }

  /** The nodes the loop over the remaining child keys `cs` of `p` reaches. */
  ghost function ReachAll(t: Tree, p: NodeId, cs: seq<NodeId>): (ns: set<NodeId>)
    requires WellFormed(t) && p in t.nodes
    requires forall c | c in cs :: c in t.nodes[p].children
    decreases t.height - t.nodes[p].depth, 0, |cs|
  {
    if cs == [] then {}
    else
      var c := cs[0];
      ChildDepth(t, p, c);
      {c} + (if c in t.failing then {} else Reach(t, c) + ReachAll(t, p, cs[1..]))
  }

  /** The downward pass marks exactly its reach with the new flag. */
  lemma {:induction false} SetDescendantsMarksReach(t: Tree, s: Session, k: NodeId, v: bool)
    requires WellFormed(t) && k in t.nodes
    ensures SetDescendants(t, s, k, v) == Mark(s, Reach(t, k), v)
    decreases t.height - t.nodes[k].depth, 1, 0
  {
    if IsLeaf(k) {
      MarkNothing(s, v);
    } else {
      VisitChildrenMarksReach(t, s, k, t.nodes[k].children, v);
    }
  }

  /** The child loop marks exactly the reach of the remaining child keys. */
  lemma {:induction false} VisitChildrenMarksReach(t: Tree, s: Session, p: NodeId, cs: seq<NodeId>, v: bool)
    requires WellFormed(t) && p in t.nodes
    requires forall c | c in cs :: c in t.nodes[p].children
    ensures VisitChildren(t, s, p, cs, v) == Mark(s, ReachAll(t, p, cs), v)
    decreases t.height - t.nodes[p].depth, 0, |cs|
  {
    if cs == [] {
      MarkNothing(s, v);
    } else if cs[0] in t.failing {
      GetThenSet(s, cs[0], v);
    } else {
      var c := cs[0];
      ChildDepth(t, p, c);
      var rc := Reach(t, c);
      var rest := ReachAll(t, p, cs[1..]);
      var s2 := SetDescendants(t, Mark(s, {c}, v), c, v);
      calc {
        VisitChildren(t, s, p, cs, v);
        { VisitChildrenUnfold(t, s, p, cs, v); }
        VisitChildren(t, s2, p, cs[1..], v);
        { VisitChildrenMarksReach(t, s2, p, cs[1..], v); }
        Mark(s2, rest, v);
        { SetDescendantsMarksReach(t, Mark(s, {c}, v), c, v);
          MarkTwice(s, {c}, rc, v); }
        Mark(Mark(s, {c} + rc, v), rest, v);
        { MarkTwice(s, {c} + rc, rest, v); }
        Mark(s, {c} + rc + rest, v);
        { VisitChildrenUnfold(t, s, p, cs, v); }
        Mark(s, ReachAll(t, p, cs), v);
      }
    }
  }

  /** One turn of the child loop over a child whose redraw succeeds. */
  lemma VisitChildrenUnfold(t: Tree, s: Session, p: NodeId, cs: seq<NodeId>, v: bool)
    requires WellFormed(t) && p in t.nodes
    requires forall c | c in cs :: c in t.nodes[p].children
    requires cs != [] && cs[0] !in t.failing
    ensures cs[0] in t.nodes
    ensures VisitChildren(t, s, p, cs, v)
         == VisitChildren(t, SetDescendants(t, Mark(s, {cs[0]}, v), cs[0], v), p, cs[1..], v)
    ensures ReachAll(t, p, cs) == {cs[0]} + Reach(t, cs[0]) + ReachAll(t, p, cs[1..])
  {
    ChildDepth(t, p, cs[0]);
    GetThenSet(s, cs[0], v);
  }

  /** Everything the downward pass reaches lies strictly below its start. */
  lemma {:induction false} ReachIsBelow(t: Tree, k: NodeId)
    requires WellFormed(t) && k in t.nodes
    ensures forall n | n in Reach(t, k) :: Below(t, k, n)
    decreases t.height - t.nodes[k].depth, 1, 0
  {
    if !IsLeaf(k) {
      ReachAllIsBelow(t, k, t.nodes[k].children);
    }
  }

  lemma {:induction false} ReachAllIsBelow(t: Tree, p: NodeId, cs: seq<NodeId>)
    requires WellFormed(t) && p in t.nodes
    requires forall c | c in cs :: c in t.nodes[p].children
    ensures forall n | n in ReachAll(t, p, cs) :: Below(t, p, n)
    decreases t.height - t.nodes[p].depth, 0, |cs|
  {
    if cs != [] {
      var c := cs[0];
      ChildDepth(t, p, c);
      BelowChild(t, p, c);
      if c !in t.failing {
        ReachIsBelow(t, c);
        ReachAllIsBelow(t, p, cs[1..]);
      }
    }
  }

  /** A child key that no failing key precedes is reached by the loop. */
  lemma {:induction false} ReachAllHasChild(t: Tree, p: NodeId, cs: seq<NodeId>, i: nat)
    requires WellFormed(t) && p in t.nodes
    requires forall c | c in cs :: c in t.nodes[p].children
    requires i < |cs| && forall j | 0 <= j < i :: cs[j] !in t.failing
    ensures cs[i] in ReachAll(t, p, cs)
    decreases i
  {
    ChildDepth(t, p, cs[0]);
    if i > 0 {
      ReachAllHasChild(t, p, cs[1..], i - 1);
    }
  }

  /** Once a node that does not fail is reached, so is everything it reaches. */
  lemma {:induction false} ReachClosed(t: Tree, k: NodeId, q: NodeId)
    requires WellFormed(t) && k in t.nodes && q in t.nodes
    requires q in Reach(t, k) && q !in t.failing
    ensures Reach(t, q) <= Reach(t, k)
    decreases t.height - t.nodes[k].depth, 1, 0
  {
    ReachAllClosed(t, k, t.nodes[k].children, q);
  }

  lemma {:induction false} ReachAllClosed(t: Tree, p: NodeId, cs: seq<NodeId>, q: NodeId)
    requires WellFormed(t) && p in t.nodes && q in t.nodes
    requires forall c | c in cs :: c in t.nodes[p].children
    requires q in ReachAll(t, p, cs) && q !in t.failing
    ensures Reach(t, q) <= ReachAll(t, p, cs)
    decreases t.height - t.nodes[p].depth, 0, |cs|
  {
    var c := cs[0];
    ChildDepth(t, p, c);
    if q != c {
      if q in Reach(t, c) {
        ReachClosed(t, c, q);
      } else {
        ReachAllClosed(t, p, cs[1..], q);
      }
    }
  }

  /** With no failing redraw below `k`, every node below `k` is reached. */
  lemma {:induction false} ReachCovers(t: Tree, k: NodeId, n: NodeId)
    requires WellFormed(t) && k in t.nodes
    requires forall m | Below(t, k, m) :: m !in t.failing
    requires Below(t, k, n)
    ensures n in Reach(t, k)
    decreases t.nodes[n].depth
  {
    BelowParent(t, k, n);
    var q := t.nodes[n].parent.value;
    var cs := t.nodes[q].children;
    var i :| 0 <= i < |cs| && cs[i] == n;
    forall c | c in cs ensures Below(t, k, c) {
      BelowChild(t, q, c);
      if q != k {
        BelowTransitive(t, k, q, c);
      }
    }
    ReachAllHasChild(t, q, cs, i);
    if q != k {
      ReachCovers(t, k, q);
      ReachClosed(t, k, q);
    }
  }

  /**
   * The downward pass without a failing redraw below `k` gives every node
   * below `k` the new flag (building its widget if need be) and leaves every
   * other node as it was. On a leaf it does nothing.
   */
  lemma SetDescendantsAll(t: Tree, s: Session, k: NodeId, v: bool)
    requires WellFormed(t) && k in t.nodes
    requires forall m | Below(t, k, m) :: m !in t.failing
    ensures var r := SetDescendants(t, s, k, v);
      && (forall n {:trigger Flagged(r, n)} :: Flagged(r, n) == (if Below(t, k, n) then v else Flagged(s, n)))
      && (forall n {:trigger n in r.widgets} :: n in r.widgets <==> n in s.widgets || Below(t, k, n))
    ensures IsLeaf(k) ==> SetDescendants(t, s, k, v) == s
  {
    SetDescendantsMarksReach(t, s, k, v);
    ReachIsBelow(t, k);
    forall n | Below(t, k, n) ensures n in Reach(t, k) {
      ReachCovers(t, k, n);
    }
  }

  /**
   * With the first failing child key at index `j`, the loop reaches only the
   * child keys up to `j` and what the ones before `j` reach.
   */
  lemma {:induction false} ReachAllUpToFailure(t: Tree, p: NodeId, cs: seq<NodeId>, j: nat, n: NodeId)
    requires WellFormed(t) && p in t.nodes
    requires forall c | c in cs :: c in t.nodes[p].children
    requires j < |cs| && cs[j] in t.failing && forall i | 0 <= i < j :: cs[i] !in t.failing
    requires n in ReachAll(t, p, cs)
    ensures n in cs[..j + 1] || exists i | 0 <= i < j :: cs[i] in t.nodes && n in Reach(t, cs[i])
    decreases j
  {
    ChildDepth(t, p, cs[0]);
    if j > 0 && n != cs[0] && n !in Reach(t, cs[0]) {
      ReachAllUpToFailure(t, p, cs[1..], j - 1, n);
      if n !in cs[1..][..j] {
        var i :| 0 <= i < j - 1 && cs[1..][i] in t.nodes && n in Reach(t, cs[1..][i]);
        assert cs[i + 1] == cs[1..][i];
      } else {
        assert n in cs[..j + 1];
      }
    }
  }

  /** A node strictly below a node is deeper than it. */
  lemma BelowIsDeeper(t: Tree, k: NodeId, n: NodeId)
    requires WellFormed(t) && Below(t, k, n)
    ensures k in t.nodes && t.nodes[k].depth < t.nodes[n].depth
  {
  }

  /**
   * The short-circuit of the child loop of `k`: when the redraw of child key
   * `cs[j]` is the first to fail, no node below `cs[j]` is reached, and
   * neither is a later child key (one not already among `cs[..j+1]`) or any
   * node below it.
   */
  lemma NotReachedAfterFailure(t: Tree, k: NodeId, j: nat, n: NodeId, c: NodeId)
    requires WellFormed(t) && k in t.nodes && !IsLeaf(k)
    requires var cs := t.nodes[k].children;
      j < |cs| && cs[j] in t.failing && forall i | 0 <= i < j :: cs[i] !in t.failing
    requires c == t.nodes[k].children[j] || (c in t.nodes[k].children && c !in t.nodes[k].children[..j + 1])
    requires Below(t, c, n) || (n == c && c != t.nodes[k].children[j])
    ensures n !in Reach(t, k)
  {
    var cs := t.nodes[k].children;
    ChildDepth(t, k, c);
    ChildDepth(t, k, cs[j]);
    if Below(t, c, n) {
      BelowIsDeeper(t, c, n);
    }
    if n in Reach(t, k) {
      ReachAllUpToFailure(t, k, cs, j, n);
      if n in cs[..j + 1] {
        ChildDepth(t, k, n);
        assert false;
      } else {
        var i :| 0 <= i < j && cs[i] in t.nodes && n in Reach(t, cs[i]);
        ChildDepth(t, k, cs[i]);
        ReachIsBelow(t, cs[i]);
        if n == c {
          BelowIsDeeper(t, cs[i], n);
          assert false;
        } else {
          PathUniqueAtDepth(t, n, cs[i], c);
          assert false;
        }
      }
    }
  }

  /**
   * The downward pass when, among the child keys `cs` of `k`, `cs[j]` is the
   * first whose redraw raises: every child key up to and including `cs[j]`
   * gets the new flag, so does everything the ones before `cs[j]` reach, and
   * the nodes below `cs[j]`, the later child keys and the nodes below those
   * are left exactly as they were.
   */
  lemma SetDescendantsStopsAtFailure(t: Tree, s: Session, k: NodeId, v: bool, j: nat)
    requires WellFormed(t) && k in t.nodes && !IsLeaf(k)
    requires var cs := t.nodes[k].children;
      j < |cs| && cs[j] in t.failing && forall i | 0 <= i < j :: cs[i] !in t.failing
    ensures var r := SetDescendants(t, s, k, v); var cs := t.nodes[k].children;
      && (forall i | 0 <= i <= j :: cs[i] in r.widgets && Flagged(r, cs[i]) == v)
      && (forall i, n | 0 <= i < j && cs[i] in t.nodes && n in Reach(t, cs[i]) :: Flagged(r, n) == v)
      && (forall n | Below(t, cs[j], n) ::
            Flagged(r, n) == Flagged(s, n) && (n in r.widgets <==> n in s.widgets))
      && (forall i, n | j < i < |cs| && cs[i] !in cs[..j + 1] && (n == cs[i] || Below(t, cs[i], n)) ::
            Flagged(r, n) == Flagged(s, n) && (n in r.widgets <==> n in s.widgets))
  {
    var cs := t.nodes[k].children;
    SetDescendantsMarksReach(t, s, k, v);
    forall i | 0 <= i <= j ensures cs[i] in Reach(t, k) {
      ReachAllHasChild(t, k, cs, i);
    }
    forall i, n | 0 <= i < j && cs[i] in t.nodes && n in Reach(t, cs[i]) ensures n in Reach(t, k) {
      ReachAllHasChild(t, k, cs, i);
      ReachAllClosed(t, k, cs, cs[i]);
    }
    forall n | Below(t, cs[j], n) ensures n !in Reach(t, k) {
      NotReachedAfterFailure(t, k, j, n, cs[j]);
    }
    forall i, n | j < i < |cs| && cs[i] !in cs[..j + 1] && (n == cs[i] || Below(t, cs[i], n))
      ensures n !in Reach(t, k)
    {
      NotReachedAfterFailure(t, k, j, n, cs[i]);
    }
  }

  // ---------------------------------------------------------------------
  // Upward pass
  // ---------------------------------------------------------------------

  /**
   * `any(parent.get_child_node(key).get_widget().flagged for key in ...)`:
   * fetches the child widgets in order (building missing ones, flagged) and
   * stops at the first flagged one.
   */
  function AnyFlagged(s: Session, cs: seq<NodeId>): (r: (bool, Session))
    ensures r.0 <==> exists i | 0 <= i < |cs| :: Flagged(s, cs[i])
    ensures forall m {:trigger Flagged(r.1, m)} :: Flagged(r.1, m) == Flagged(s, m)
    ensures s.widgets.Keys <= r.1.widgets.Keys
    ensures forall m | m in r.1.widgets :: m in s.widgets || m in cs
    ensures CacheOk(s) ==> CacheOk(r.1)
    ensures r.1.showIds == s.showIds
    decreases |cs|
  {
    if cs == [] then (false, s)
    else
      var s1 := GetWidget(s, cs[0]);
      if s1.widgets[cs[0]] then (true, s1)
      else
        var r := AnyFlagged(s1, cs[1..]);
        assert r.0 ==> exists i | 0 <= i < |cs| :: Flagged(s, cs[i]) by {
          if r.0 {
            var i :| 0 <= i < |cs[1..]| && Flagged(s1, cs[1..][i]);
            assert Flagged(s, cs[i + 1]);
          }
        }
        assert (exists i | 0 <= i < |cs| :: Flagged(s, cs[i])) ==> r.0 by {
          if i :| 0 <= i < |cs| && Flagged(s, cs[i]) {
            assert i != 0;
            assert Flagged(s1, cs[1..][i - 1]);
          }
        }
        r
  }

  /** The `if self.flagged:` loop: every ancestor, from the parent up, gets `v`. */
  function RaiseAncestors(t: Tree, s: Session, p: Option<NodeId>, v: bool): (r: Session)
    requires WellFormed(t) && (p.Some? ==> p.value in t.nodes)
    ensures s.widgets.Keys <= r.widgets.Keys <= s.widgets.Keys + t.nodes.Keys
    ensures CacheOk(s) ==> CacheOk(r)
    ensures r.showIds == s.showIds
    decreases if p.Some? && p.value in t.nodes then t.nodes[p.value].depth + 1 else 0
  {
    match p
    case None => s
    case Some(q) => RaiseAncestors(t, SetFlag(GetWidget(s, q), q, v), t.nodes[q].parent, v)
  }

  /**
   * The `else:` loop: climbing from the parent, stop at the first ancestor
   * with a flagged child; otherwise give the ancestor `v` and climb on.
   */
  function ClearAncestors(t: Tree, s: Session, p: Option<NodeId>, v: bool): (r: Session)
    requires WellFormed(t) && (p.Some? ==> p.value in t.nodes)
    ensures s.widgets.Keys <= r.widgets.Keys <= s.widgets.Keys + t.nodes.Keys
    ensures CacheOk(s) ==> CacheOk(r)
    ensures r.showIds == s.showIds
    decreases if p.Some? && p.value in t.nodes then t.nodes[p.value].depth + 1 else 0
  {
    match p
    case None => s
    case Some(q) =>
      var found := AnyFlagged(s, t.nodes[q].children);
      if found.0 then found.1
      else ClearAncestors(t, SetFlag(GetWidget(found.1, q), q, v), t.nodes[q].parent, v)
  }

  /**
   * `set_ancestors_state(v)` on the widget of `k`: the branch is chosen by
   * the widget's own flag, the value written is `v`.
   */
  function SetAncestors(t: Tree, s: Session, k: NodeId, v: bool): (r: Session)
    requires WellFormed(t) && k in t.nodes && k in s.widgets
    ensures s.widgets.Keys <= r.widgets.Keys <= s.widgets.Keys + t.nodes.Keys
    ensures CacheOk(s) ==> CacheOk(r)
    ensures r.showIds == s.showIds
  {
    if s.widgets[k] then RaiseAncestors(t, s, t.nodes[k].parent, v)
    else ClearAncestors(t, s, t.nodes[k].parent, v)
  }

  /** Raising from the parent of `x` marks exactly the ancestors of `x`. */
  lemma {:induction false} RaiseMarksPath(t: Tree, s: Session, x: NodeId, v: bool)
    requires WellFormed(t) && x in t.nodes
    ensures RaiseAncestors(t, s, t.nodes[x].parent, v) == Mark(s, AncestorSet(t, x), v)
    decreases t.nodes[x].depth
  {
    match t.nodes[x].parent
    case None =>
      MarkNothing(s, v);
      assert AncestorSet(t, x) == {};
    case Some(q) =>
      var up := AncestorSet(t, q);
      calc {
        RaiseAncestors(t, s, t.nodes[x].parent, v);
        RaiseAncestors(t, SetFlag(GetWidget(s, q), q, v), t.nodes[q].parent, v);
        { GetThenSet(s, q, v); }
        RaiseAncestors(t, Mark(s, {q}, v), t.nodes[q].parent, v);
        { RaiseMarksPath(t, Mark(s, {q}, v), q, v); }
        Mark(Mark(s, {q}, v), up, v);
        { MarkTwice(s, {q}, up, v); }
        Mark(s, {q} + up, v);
        { AncestorSetStep(t, x); }
        Mark(s, AncestorSet(t, x), v);
      }
  }

  /**
   * The outcome of the clearing climb from `x`, whose ancestors are `P`: the
   * first `j` ancestors are unflagged and so are all of their children; the
   * next one, if any, has a flagged child (where the climb stopped); every
   * node other than those `j` ancestors reads as before.
   */
  ghost predicate ClearedUpTo(t: Tree, x: NodeId, j: nat, before: Session, after: Session)
    requires WellFormed(t) && x in t.nodes
  {
    var P := Path(t, x);
    && j <= |P|
    && (forall i | 0 <= i < j ::
          !Flagged(after, P[i]) && forall c | c in t.nodes[P[i]].children :: !Flagged(after, c))
    && (j < |P| ==> exists c | c in t.nodes[P[j]].children :: Flagged(after, c))
    && (forall n {:trigger Flagged(after, n)} | n !in P[..j] :: Flagged(after, n) == Flagged(before, n))
  }

  /** The clearing climb started below an unflagged node ends as ClearedUpTo describes. */
  lemma {:induction false} ClearAncestorsEffect(t: Tree, s: Session, x: NodeId, v: bool)
    requires WellFormed(t) && x in t.nodes
    requires !v && !Flagged(s, x)
    ensures exists j :: ClearedUpTo(t, x, j, s, ClearAncestors(t, s, t.nodes[x].parent, v))
    decreases t.nodes[x].depth
  {
    var r := ClearAncestors(t, s, t.nodes[x].parent, v);
    match t.nodes[x].parent
    case None =>
      assert ClearedUpTo(t, x, 0, s, r);
    case Some(q) =>
      var cs := t.nodes[q].children;
      var found := AnyFlagged(s, cs);
      if found.0 {
        var i :| 0 <= i < |cs| && Flagged(s, cs[i]);
        assert Flagged(r, cs[i]);
        assert Path(t, x)[0] == q;
        assert ClearedUpTo(t, x, 0, s, r);
      } else {
        var s2 := SetFlag(GetWidget(found.1, q), q, v);
        assert r == ClearAncestors(t, s2, t.nodes[q].parent, v);
        ClearAncestorsEffect(t, s2, q, v);
        var j': nat :| ClearedUpTo(t, q, j', s2, r);
        assert forall c | c in cs :: !Flagged(s, c) by {
          forall c | c in cs ensures !Flagged(s, c) {
            var i :| 0 <= i < |cs| && cs[i] == c;
          }
        }
        ClearStepUp(t, s, s2, r, x, q, j');
      }
  }

  /** The ancestors of `x` are its parent `q` followed by the ancestors of `q`. */
  lemma PathStep(t: Tree, x: NodeId, q: NodeId, j': nat)
    requires WellFormed(t) && x in t.nodes && t.nodes[x].parent == Some(q) && j' <= |Path(t, q)|
    ensures Path(t, x) == [q] + Path(t, q)
    ensures Path(t, x)[..j' + 1] == [q] + Path(t, q)[..j']
  {
  }

  /** One more cleared level: the parent `q` of `x` had no flagged child and was cleared. */
  lemma ClearStepUp(t: Tree, s: Session, s2: Session, r: Session, x: NodeId, q: NodeId, j': nat)
    requires WellFormed(t) && x in t.nodes && t.nodes[x].parent == Some(q)
    requires forall c | c in t.nodes[q].children :: !Flagged(s, c)
    requires !Flagged(s2, q) && forall n | n != q :: Flagged(s2, n) == Flagged(s, n)
    requires ClearedUpTo(t, q, j', s2, r)
    ensures ClearedUpTo(t, x, j' + 1, s, r)
  {
    ClearStepHead(t, s, s2, r, q, j');
    ClearStepPrefix(t, r, x, q, j');
    ClearStepStop(t, r, x, q, j');
    ClearStepFrame(t, s, s2, r, x, q, j');
  }

  /** The parent `q` itself and all of its children read unflagged once the climb is over. */
  lemma ClearStepHead(t: Tree, s: Session, s2: Session, r: Session, q: NodeId, j': nat)
    requires WellFormed(t) && q in t.nodes && j' <= |Path(t, q)|
    requires forall c | c in t.nodes[q].children :: !Flagged(s, c)
    requires !Flagged(s2, q) && forall n | n != q :: Flagged(s2, n) == Flagged(s, n)
    requires forall n {:trigger Flagged(r, n)} | n !in Path(t, q)[..j'] :: Flagged(r, n) == Flagged(s2, n)
    ensures !Flagged(r, q) && forall c | c in t.nodes[q].children :: !Flagged(r, c)
  {
    NotOnOwnPath(t, q, q);
    forall c | c in t.nodes[q].children ensures !Flagged(r, c) {
      ChildDepth(t, q, c);
      NotOnOwnPath(t, q, c);
    }
  }

  /** The cleared prefix grows by the parent. */
  lemma ClearStepPrefix(t: Tree, r: Session, x: NodeId, q: NodeId, j': nat)
    requires WellFormed(t) && x in t.nodes && t.nodes[x].parent == Some(q) && j' <= |Path(t, q)|
    requires !Flagged(r, q) && forall c | c in t.nodes[q].children :: !Flagged(r, c)
    requires forall i | 0 <= i < j' ::
      !Flagged(r, Path(t, q)[i]) && forall c | c in t.nodes[Path(t, q)[i]].children :: !Flagged(r, c)
    ensures forall i | 0 <= i < j' + 1 ::
      !Flagged(r, Path(t, x)[i]) && forall c | c in t.nodes[Path(t, x)[i]].children :: !Flagged(r, c)
  {
    PathStep(t, x, q, j');
    var P := Path(t, x);
    var Q := Path(t, q);
    forall i | 0 <= i < j' + 1
      ensures !Flagged(r, P[i]) && forall c | c in t.nodes[P[i]].children :: !Flagged(r, c)
    {
      if i > 0 {
        assert P[i] == Q[i - 1];
      }
    }
  }

  /** The level where the climb stopped, seen from `x`, is one further up. */
  lemma ClearStepStop(t: Tree, r: Session, x: NodeId, q: NodeId, j': nat)
    requires WellFormed(t) && x in t.nodes && t.nodes[x].parent == Some(q) && j' <= |Path(t, q)|
    requires j' < |Path(t, q)| ==> exists c | c in t.nodes[Path(t, q)[j']].children :: Flagged(r, c)
    ensures j' + 1 < |Path(t, x)| ==> exists c | c in t.nodes[Path(t, x)[j' + 1]].children :: Flagged(r, c)
  {
    PathStep(t, x, q, j');
    if j' + 1 < |Path(t, x)| {
      assert Path(t, x)[j' + 1] == Path(t, q)[j'];
    }
  }

  /** Everything outside the cleared prefix reads as before the whole climb. */
  lemma ClearStepFrame(t: Tree, s: Session, s2: Session, r: Session, x: NodeId, q: NodeId, j': nat)
    requires WellFormed(t) && x in t.nodes && t.nodes[x].parent == Some(q) && j' <= |Path(t, q)|
    requires forall n | n != q :: Flagged(s2, n) == Flagged(s, n)
    requires forall n {:trigger Flagged(r, n)} | n !in Path(t, q)[..j'] :: Flagged(r, n) == Flagged(s2, n)
    ensures forall n {:trigger Flagged(r, n)} | n !in Path(t, x)[..j' + 1] :: Flagged(r, n) == Flagged(s, n)
  {
    PathStep(t, x, q, j');
    forall n | n !in Path(t, x)[..j' + 1] ensures Flagged(r, n) == Flagged(s, n) {
      assert n != q && n !in Path(t, q)[..j'];
    }
  }

  /**
   * The upward pass for a node flagged `v == true`: every ancestor up to and
   * including the root becomes flagged, and no other node changes.
   */
  lemma SetAncestorsRaise(t: Tree, s: Session, k: NodeId)
    requires WellFormed(t) && k in t.nodes && k in s.widgets && s.widgets[k]
    ensures SetAncestors(t, s, k, true) == Mark(s, AncestorSet(t, k), true)
  {
    RaiseMarksPath(t, s, k, true);
  }

  /**
   * The upward pass for a node unflagged with `v == false`: it clears
   * ancestors one level at a time and stops at the first with a flagged child.
   */
  lemma SetAncestorsClear(t: Tree, s: Session, k: NodeId)
    requires WellFormed(t) && k in t.nodes && k in s.widgets && !s.widgets[k]
    ensures exists j :: ClearedUpTo(t, k, j, s, SetAncestors(t, s, k, false))
  {
    assert SetAncestors(t, s, k, false) == ClearAncestors(t, s, t.nodes[k].parent, false);
    ClearAncestorsEffect(t, s, k, false);
  }

  // ---------------------------------------------------------------------
  // The space key
  // ---------------------------------------------------------------------

  /**
   * The space branch of `unhandled_keys` on the widget of `k`: flip its
   * flag, then the downward pass, then the upward pass, both with the new
   * flag. (The final redraw of `k` is presentation only.)
   */
  function Toggle(t: Tree, s: Session, k: NodeId): (r: Session)
    requires WellFormed(t) && k in t.nodes && k in s.widgets
    ensures s.widgets.Keys <= r.widgets.Keys
    ensures CacheOk(s) ==> CacheOk(r)
    ensures r.showIds == s.showIds
  {
    var f := !s.widgets[k];
    var s1 := SetFlag(s, k, f);
    var s2 := SetDescendants(t, s1, k, f);
    SetAncestors(t, s2, k, f)
  }

  /**
   * After the downward pass, the toggled node still carries its new flag,
   * so the upward pass takes the branch of that flag.
   */
  lemma DescendantsKeepFocus(t: Tree, s: Session, k: NodeId, f: bool)
    requires WellFormed(t) && k in t.nodes && k in s.widgets
    ensures var s2 := SetDescendants(t, SetFlag(s, k, f), k, f);
      k in s2.widgets && s2.widgets[k] == f
    ensures var s2 := SetDescendants(t, SetFlag(s, k, f), k, f);
      forall n {:trigger Flagged(s2, n)} :: !Below(t, k, n) ==> Flagged(s2, n) == (if n == k then f else Flagged(s, n))
  {
    var s1 := SetFlag(s, k, f);
    SetDescendantsMarksReach(t, s1, k, f);
    ReachIsBelow(t, k);
    NotOnOwnPath(t, k, k);
  }

  /** Space flips the flag of the focused node, whatever fails to redraw. */
  lemma ToggleFlipsFocus(t: Tree, s: Session, k: NodeId)
    requires WellFormed(t) && k in t.nodes && k in s.widgets
    ensures Flagged(Toggle(t, s, k), k) == !Flagged(s, k)
  {
    var f := !s.widgets[k];
    var s2 := SetDescendants(t, SetFlag(s, k, f), k, f);
    DescendantsKeepFocus(t, s, k, f);
    NotOnOwnPath(t, k, k);
    if f {
      SetAncestorsRaise(t, s2, k);
    } else {
      SetAncestorsClear(t, s2, k);
      var j: nat :| ClearedUpTo(t, k, j, s2, SetAncestors(t, s2, k, f));
      assert k !in Path(t, k)[..j];
    }
  }

  /** Nodes below `k` are not among its ancestors. */
  lemma BelowNotAncestor(t: Tree, k: NodeId)
    requires WellFormed(t) && k in t.nodes
    ensures forall n | Below(t, k, n) :: n !in Path(t, k)
  {
    forall n | Below(t, k, n) ensures n !in Path(t, k) {
      BelowIsDeeper(t, k, n);
      NotOnOwnPath(t, k, n);
    }
  }

  /**
   * Space with no failing redraw below the focused node `k`: `k` and every
   * node below it end with the new flag.
   */
  lemma ToggleSetsSubtree(t: Tree, s: Session, k: NodeId)
    requires WellFormed(t) && k in t.nodes && k in s.widgets
    requires forall m | Below(t, k, m) :: m !in t.failing
    ensures var r := Toggle(t, s, k);
      && Flagged(r, k) == !Flagged(s, k)
      && (forall n | Below(t, k, n) :: Flagged(r, n) == !Flagged(s, k))
  {
    var f := !s.widgets[k];
    var s1 := SetFlag(s, k, f);
    var s2 := SetDescendants(t, s1, k, f);
    var r := Toggle(t, s, k);
    DescendantsKeepFocus(t, s, k, f);
    SetDescendantsAll(t, s1, k, f);
    ToggleFlipsFocus(t, s, k);
    BelowNotAncestor(t, k);
    if f {
      SetAncestorsRaise(t, s2, k);
    } else {
      SetAncestorsClear(t, s2, k);
      var j: nat :| ClearedUpTo(t, k, j, s2, r);
      assert forall n | Below(t, k, n) :: n !in Path(t, k)[..j];
    }
  }

  /**
   * Space that flags `k`, whatever redraws below it fail: every ancestor of
   * `k` up to the root becomes flagged, and no node that is neither `k`, below
   * `k` nor an ancestor of `k` changes; siblings in particular keep their flag.
   */
  lemma ToggleOnRaisesAncestors(t: Tree, s: Session, k: NodeId)
    requires WellFormed(t) && k in t.nodes && k in s.widgets && !s.widgets[k]
    ensures var r := Toggle(t, s, k);
      && (forall n | n in Path(t, k) :: Flagged(r, n))
      && (forall n {:trigger Flagged(r, n)} | n != k && !Below(t, k, n) && n !in Path(t, k) ::
            Flagged(r, n) == Flagged(s, n))
  {
    var s1 := SetFlag(s, k, true);
    var s2 := SetDescendants(t, s1, k, true);
    DescendantsKeepFocus(t, s, k, true);
    SetAncestorsRaise(t, s2, k);
  }

  /**
   * Space that unflags `k`, whatever redraws below it fail: for some `j`, the
   * first `j` ancestors of `k` are cleared and each is left with no flagged
   * child; the ancestor at `j`, if any, is where the climb stopped and has a
   * flagged child; no node that is neither `k`, below `k` nor one of those
   * `j` ancestors changes.
   */
  lemma ToggleOffClearsUpward(t: Tree, s: Session, k: NodeId) returns (j: nat)
    requires WellFormed(t) && k in t.nodes && k in s.widgets && s.widgets[k]
    ensures var r := Toggle(t, s, k); var P := Path(t, k);
      && j <= |P|
      && (forall i | 0 <= i < j ::
            !Flagged(r, P[i]) && forall c | c in t.nodes[P[i]].children :: !Flagged(r, c))
      && (j < |P| ==> exists c | c in t.nodes[P[j]].children :: Flagged(r, c))
      && (forall n {:trigger Flagged(r, n)} | n != k && !Below(t, k, n) && n !in P[..j] ::
            Flagged(r, n) == Flagged(s, n))
  {
    var s1 := SetFlag(s, k, false);
    var s2 := SetDescendants(t, s1, k, false);
    var r := Toggle(t, s, k);
    DescendantsKeepFocus(t, s, k, false);
    SetAncestorsClear(t, s2, k);
    j :| ClearedUpTo(t, k, j, s2, r);
  }

  /** Space only ever builds widgets for nodes of the tree. */
  lemma ToggleStaysInTree(t: Tree, s: Session, k: NodeId)
    requires WellFormed(t) && k in t.nodes && k in s.widgets
    ensures Toggle(t, s, k).widgets.Keys <= s.widgets.Keys + t.nodes.Keys
  {
    var f := !s.widgets[k];
    var s1 := SetFlag(s, k, f);
    SetDescendantsMarksReach(t, s1, k, f);
    ReachIsBelow(t, k);
  }
}

=== FILE: sorting.dfy ===
/**
 * Python's `sorted(xs, key=k)` over strings, as a stable insertion sort.
 * The contracts say what `sorted` promises: the result is a permutation of
 * the input and is ordered by the key under Python's string order.
 */
module Sorting {
  import StrOrder

  /** Every earlier element's key is `<=` every later element's key. */
  ghost predicate SortedBy(xs: seq<string>, key: string -> string)
  {
    forall i, j :: 0 <= i < j < |xs| ==> StrOrder.Le(key(xs[i]), key(xs[j]))
  }

  /** Inserts `x` before the first element whose key is not below `x`'s. */
  function InsertBy(x: string, xs: seq<string>, key: string -> string): (r: seq<string>)
    requires SortedBy(xs, key)
    ensures multiset(r) == multiset(xs) + multiset{x}
    ensures SortedBy(r, key)
    decreases |xs|
  {
    if xs == [] then [x]
    else if StrOrder.Le(key(x), key(xs[0])) then
      var r := [x] + xs;
      assert SortedBy(r, key) by {
        forall i, j | 0 <= i < j < |r|
          ensures StrOrder.Le(key(r[i]), key(r[j]))
        {
          if i == 0 && j > 1 {
            StrOrder.LeTransitive(key(x), key(xs[0]), key(xs[j - 1]));
          }
        }
      }
      r
    else
      var rest := InsertBy(x, xs[1..], key);
      var r := [xs[0]] + rest;
      assert xs == [xs[0]] + xs[1..];
      assert SortedBy(r, key) by {
        StrOrder.LeTotal(key(x), key(xs[0]));
        forall i, j | 0 <= i < j < |r|
          ensures StrOrder.Le(key(r[i]), key(r[j]))
        {
          if i == 0 {
            assert r[j] in multiset(rest);
            assert r[j] == x || r[j] in multiset(xs[1..]);
            if r[j] != x {
              var m :| 0 <= m < |xs[1..]| && xs[1..][m] == r[j];
              assert xs[m + 1] == r[j];
            }
          }
        }
      }
      r
  }

  /** `sorted(xs, key=key)`. */
  function SortBy(xs: seq<string>, key: string -> string): (r: seq<string>)
    ensures multiset(r) == multiset(xs)
    ensures SortedBy(r, key)
    decreases |xs|
  {
    if xs == [] then []
    else
      assert xs == [xs[0]] + xs[1..];
      InsertBy(xs[0], SortBy(xs[1..], key), key)
  }
}

=== FILE: str_order.dfy ===
/**
 * Python's ordering of `str` values: lexicographic on code points, with a
 * proper prefix ordered before any of its extensions. `sorted` on strings and
 * on translated category names uses this order.
 */
module StrOrder {

  /** `a <= b` as Python compares two strings. */
  predicate Le(a: string, b: string)
    decreases |a|
  {
    if |a| == 0 then true
    else if |b| == 0 then false
    else if a[0] != b[0] then a[0] < b[0]
    else Le(a[1..], b[1..])
  }

  /** Any two strings are comparable. */
  lemma {:induction false} LeTotal(a: string, b: string)
    ensures Le(a, b) || Le(b, a)
    decreases |a|
  {
    if |a| > 0 && |b| > 0 && a[0] == b[0] {
      LeTotal(a[1..], b[1..]);
    }
  }

  /** The order is transitive. */
  lemma {:induction false} LeTransitive(a: string, b: string, c: string)
    requires Le(a, b) && Le(b, c)
    ensures Le(a, c)
    decreases |a|
  {
    if |a| > 0 && |b| > 0 && |c| > 0 && a[0] == b[0] && b[0] == c[0] {
      LeTransitive(a[1..], b[1..], c[1..]);
    }
  }
}

=== FILE: tree_build.dfy ===
/**
 * How the browser's tree is grown from the job list: the root's children are
 * the participating categories ordered by translated name, a category's
 * children are the ids of its jobs in string order, and a job node is labelled
 * with the summary of the first list entry carrying its id.
 */
module TreeBuild {
  import opened Wrappers
  import opened Sorting
  import opened CategoryTree
  import StrOrder

  /** One entry of `test_info_list`: job id, translated summary, effective category id. */
  datatype JobInfo = JobInfo(id: string, name: string, categoryId: string)

  /** A participating category: its id and translated name. */
  datatype Category = Category(id: string, name: string)

  /**
   * The position of the first occurrence of `k` in `ks`: the entry Python's
   * `next(x for x in xs if x.id == k)` finds, with `None` where `next` would
   * raise `StopIteration`.
   */
  function FirstIndex(ks: seq<string>, k: string): (r: Option<nat>)
    ensures r.None? <==> k !in ks
    ensures r.Some? ==> r.value < |ks| && ks[r.value] == k && forall m | 0 <= m < r.value :: ks[m] != k
  {
    if ks == [] then None
    else if ks[0] == k then Some(0)
    else
      match FirstIndex(ks[1..], k)
      case None => None
      case Some(i) =>
        assert forall m | 1 <= m < i + 1 :: ks[m] == ks[1..][m - 1];
        Some(i + 1)
  }

  /**
   * The sort key of the root's children: the category's translated name.
   * A key that names no participating category cannot occur; it sorts as "".
   */
  function CategoryName(cats: seq<Category>, id: string): (name: string)
    ensures forall i | 0 <= i < |cats| && cats[i].id == id && (forall m | 0 <= m < i :: cats[m].id != id) ::
      name == cats[i].name
  {
    match FirstIndex(CategoryIds(cats), id)
    case Some(i) => cats[i].name
    case None => ""
  }

  /** The ids of the participating categories, in the order given. */
  function CategoryIds(cats: seq<Category>): (ids: seq<string>)
    ensures |ids| == |cats| && forall i | 0 <= i < |cats| :: ids[i] == cats[i].id
  {
    seq(|cats|, i requires 0 <= i < |cats| => cats[i].id)
  }

  /** The ids of the job entries, in list order. */
  function JobIds(jobs: seq<JobInfo>): seq<string>
  {
    seq(|jobs|, i requires 0 <= i < |jobs| => jobs[i].id)
  }

  /** The ids of the entries of `jobs` filed under category `cid`, in list order, repeats kept. */
  function JobsIn(jobs: seq<JobInfo>, cid: string): (ids: seq<string>)
    ensures forall x :: x in ids <==> exists i | 0 <= i < |jobs| :: jobs[i].id == x && jobs[i].categoryId == cid
    ensures |ids| <= |jobs|
  {
    if jobs == [] then []
    else
      var rest := JobsIn(jobs[1..], cid);
      assert forall i | 1 <= i < |jobs| :: jobs[i] == jobs[1..][i - 1];
      assert forall i | 0 <= i < |jobs[1..]| :: jobs[1..][i] == jobs[i + 1];
      if jobs[0].categoryId == cid then [jobs[0].id] + rest else rest
  }

  /** An entry contributes its id once when filed under `cid`, and nothing otherwise. */
  lemma JobsInSingle(j: JobInfo, cid: string)
    ensures JobsIn([j], cid) == if j.categoryId == cid then [j.id] else []
  {
    assert [j][1..] == [];
  }

  /** The comprehension distributes over list concatenation: one key per matching entry, in order. */
  lemma {:induction false} JobsInAppend(a: seq<JobInfo>, b: seq<JobInfo>, cid: string)
    ensures JobsIn(a + b, cid) == JobsIn(a, cid) + JobsIn(b, cid)
    decreases |a|
  {
    if a == [] {
      assert a + b == b;
    } else {
      JobsInAppend(a[1..], b, cid);
      assert (a + b)[1..] == a[1..] + b;
    }
  }

  /** `load_child_keys` at the root: the category ids ordered by translated name. */
  function RootChildKeys(cats: seq<Category>): (r: seq<string>)
    ensures multiset(r) == multiset(CategoryIds(cats))
    ensures SortedBy(r, id => CategoryName(cats, id))
  {
    SortBy(CategoryIds(cats), id => CategoryName(cats, id))
  }

  /** `load_child_keys` at a category: the ids of its jobs in string order. */
  function CategoryChildKeys(jobs: seq<JobInfo>, cid: string): (r: seq<string>)
    ensures multiset(r) == multiset(JobsIn(jobs, cid))
    ensures SortedBy(r, id => id)
  {
    SortBy(JobsIn(jobs, cid), id => id)
  }

  // The wrapping of child keys into node ids, and the two lemmas about it
  // further down, are written once per constructor. A version that takes the
  // constructor as a parameter makes the well-formedness of `js[i].job` in
  // BuildOrder depend on unfolding that parameter, and the ordering proofs
  // then exceed the solver's resource limit.

  /** Wraps each key of the root's child-key list into a category node id. */
  function CategoryNodes(ks: seq<string>): (ns: seq<NodeId>)
    ensures |ns| == |ks| && forall i | 0 <= i < |ks| :: ns[i] == CategoryId(ks[i])
  {
    seq(|ks|, i requires 0 <= i < |ks| => CategoryId(ks[i]))
  }

  /** Wraps each key of a category's child-key list into a job node id. */
  function JobNodes(ks: seq<string>): (ns: seq<NodeId>)
    ensures |ns| == |ks| && forall i | 0 <= i < |ks| :: ns[i] == JobId(ks[i])
  {
    seq(|ks|, i requires 0 <= i < |ks| => JobId(ks[i]))
  }

  /**
   * Every entry with a given job id names the same category (the source takes
   * the category from the job's state, which is one per id).
   */
  ghost predicate OneCategoryPerJob(jobs: seq<JobInfo>)
  {
    forall i, j | 0 <= i < |jobs| && 0 <= j < |jobs| && jobs[i].id == jobs[j].id ::
      jobs[i].categoryId == jobs[j].categoryId
  }

  /** The job ids that appear in the tree: those filed under a participating category. */
  ghost predicate Shown(jobs: seq<JobInfo>, cats: seq<Category>, id: string)
  {
    exists i, c | 0 <= i < |jobs| && 0 <= c < |cats| :: jobs[i].id == id && jobs[i].categoryId == cats[c].id
  }

  /** The node the source loads for `n` (meaningful for the ids Build keeps). */
  function NodeFor(jobs: seq<JobInfo>, cats: seq<Category>, n: NodeId): (node: Node)
  {
    match n
    case RootId => Node(None, CategoryNodes(RootChildKeys(cats)), 0, "")
    case CategoryId(c) => Node(Some(RootId), JobNodes(CategoryChildKeys(jobs, c)), 1, CategoryName(cats, c))
    case JobId(id) =>
      match FirstIndex(JobIds(jobs), id)
      case Some(i) => Node(Some(CategoryId(jobs[i].categoryId)), [], 2, jobs[i].name)
      case None => Node(None, [], 2, "")
  }

  /** The node ids of the tree: the root, every participating category, every shown job. */
  function NodeIds(jobs: seq<JobInfo>, cats: seq<Category>): (ks: set<NodeId>)
    ensures forall n :: n in ks <==>
      || n == RootId
      || (n.CategoryId? && n.category in CategoryIds(cats))
      || (n.JobId? && exists i | 0 <= i < |jobs| :: jobs[i].id == n.job && jobs[i].categoryId in CategoryIds(cats))
  {
    var ids := CategoryIds(cats);
    {RootId}
      + (set c | c in ids :: CategoryId(c))
      + (set j | j in jobs && j.categoryId in ids :: JobId(j.id))
  }

  /**
   * `CategoryBrowser.__init__`'s tree: the root `CategoryNode`, its categories
   * at depth 1 and their jobs at depth 2, with `failing` carried through.
   */
  function Build(jobs: seq<JobInfo>, cats: seq<Category>, failing: set<NodeId>): (t: Tree)
    requires OneCategoryPerJob(jobs)
    ensures WellFormed(t)
    ensures t.root == RootId && t.height == 2 && t.failing == failing
  {
    var t := Tree(map n | n in NodeIds(jobs, cats) :: NodeFor(jobs, cats, n), RootId, 2, failing);
    BuildWellFormed(jobs, cats, t);
    t
  }

  /** The arena Build assembles. */
  ghost predicate IsBuilt(jobs: seq<JobInfo>, cats: seq<Category>, t: Tree)
  {
    t == Tree(map n | n in NodeIds(jobs, cats) :: NodeFor(jobs, cats, n), RootId, 2, t.failing)
  }

  /** The entry found for a listed job id carries that job's category. */
  lemma FoundJobCategory(jobs: seq<JobInfo>, id: string, k: int)
    requires OneCategoryPerJob(jobs) && 0 <= k < |jobs| && jobs[k].id == id
    ensures FirstIndex(JobIds(jobs), id).Some?
    ensures jobs[FirstIndex(JobIds(jobs), id).value].categoryId == jobs[k].categoryId
  {
    assert JobIds(jobs)[k] == id;
    var i := FirstIndex(JobIds(jobs), id).value;
    assert jobs[i].id == JobIds(jobs)[i] == id;
  }

  /** The first entry with a job's id is the one `next(...)` finds. */
  lemma FirstJobIndex(jobs: seq<JobInfo>, id: string, k: int)
    requires 0 <= k < |jobs| && jobs[k].id == id && forall m | 0 <= m < k :: jobs[m].id != id
    ensures FirstIndex(JobIds(jobs), id) == Some(k)
  {
    var ids := JobIds(jobs);
    assert ids[k] == id;
    var i := FirstIndex(ids, id).value;
    assert ids[i] == jobs[i].id;
  }

  /** A node's parent exists, sits one level up and lists the node among its children. */
  lemma ParentLink(jobs: seq<JobInfo>, cats: seq<Category>, t: Tree, n: NodeId)
    requires OneCategoryPerJob(jobs) && IsBuilt(jobs, cats, t) && n in t.nodes
    ensures match t.nodes[n].parent
      case None => n == t.root
      case Some(q) =>
        && q in t.nodes
        && t.nodes[q].depth + 1 == t.nodes[n].depth
        && n in t.nodes[q].children
  {
    match n
    case RootId =>
    case CategoryId(c) => CategoryParentLink(jobs, cats, t, c);
    case JobId(id) => JobParentLink(jobs, cats, t, id);
  }

  /** A category hangs under the root, which lists it. */
  lemma CategoryParentLink(jobs: seq<JobInfo>, cats: seq<Category>, t: Tree, c: string)
    requires IsBuilt(jobs, cats, t) && CategoryId(c) in t.nodes
    ensures t.nodes[CategoryId(c)].parent == Some(RootId) && RootId in t.nodes
    ensures t.nodes[RootId].depth + 1 == t.nodes[CategoryId(c)].depth
    ensures CategoryId(c) in t.nodes[RootId].children
  {
    var ks := RootChildKeys(cats);
    assert c in multiset(ks);
    var i :| 0 <= i < |ks| && ks[i] == c;
    assert t.nodes[RootId].children[i] == CategoryId(c);
  }

  /** A job hangs under its category, which lists it. */
  lemma JobParentLink(jobs: seq<JobInfo>, cats: seq<Category>, t: Tree, id: string)
    requires OneCategoryPerJob(jobs) && IsBuilt(jobs, cats, t) && JobId(id) in t.nodes
    ensures t.nodes[JobId(id)].parent.Some?
    ensures var q := t.nodes[JobId(id)].parent.value;
      && q in t.nodes
      && t.nodes[q].depth + 1 == t.nodes[JobId(id)].depth
      && JobId(id) in t.nodes[q].children
  {
    var k :| 0 <= k < |jobs| && jobs[k].id == id && jobs[k].categoryId in CategoryIds(cats);
    FoundJobCategory(jobs, id, k);
    var cid := jobs[k].categoryId;
    assert t.nodes[JobId(id)] == NodeFor(jobs, cats, JobId(id));
    assert t.nodes[JobId(id)].parent == Some(CategoryId(cid));
    var ks := CategoryChildKeys(jobs, cid);
    assert id in multiset(ks) by {
      assert id in JobsIn(jobs, cid);
    }
    var i :| 0 <= i < |ks| && ks[i] == id;
    assert CategoryId(cid) in t.nodes;
    assert t.nodes[CategoryId(cid)].children[i] == JobId(id);
  }

  /** Every listed child exists and names its lister as parent. */
  lemma ChildLink(jobs: seq<JobInfo>, cats: seq<Category>, t: Tree, n: NodeId, i: int)
    requires OneCategoryPerJob(jobs) && IsBuilt(jobs, cats, t)
    requires n in t.nodes && 0 <= i < |t.nodes[n].children|
    ensures t.nodes[n].children[i] in t.nodes
    ensures t.nodes[t.nodes[n].children[i]].parent == Some(n)
  {
    var ids := CategoryIds(cats);
    match n
    case RootId =>
      var c := RootChildKeys(cats)[i];
      assert c in multiset(ids);
    case CategoryId(cid) =>
      var id := CategoryChildKeys(jobs, cid)[i];
      assert id in multiset(JobsIn(jobs, cid));
      assert id in JobsIn(jobs, cid);
      var k :| 0 <= k < |jobs| && jobs[k].id == id && jobs[k].categoryId == cid;
      assert cid in ids;
      FoundJobCategory(jobs, id, k);
    case JobId(_) =>
  }

  /** The assembled arena is well formed. */
  lemma BuildWellFormed(jobs: seq<JobInfo>, cats: seq<Category>, t: Tree)
    requires OneCategoryPerJob(jobs) && IsBuilt(jobs, cats, t)
    ensures WellFormed(t)
  {
    assert t.root in t.nodes && t.nodes[t.root].parent == None && t.nodes[t.root].depth == 0;
    assert forall n {:trigger t.nodes[n].depth} | n in t.nodes :: t.nodes[n].depth <= t.height by {
      forall n | n in t.nodes ensures t.nodes[n].depth <= 2 {
        assert t.nodes[n] == NodeFor(jobs, cats, n);
      }
    }
    assert forall n {:trigger t.nodes[n].children} | n in t.nodes && IsLeaf(n) :: t.nodes[n].children == [] by {
      forall n | n in t.nodes && IsLeaf(n) ensures t.nodes[n].children == [] {
        assert t.nodes[n] == NodeFor(jobs, cats, n);
      }
    }
    forall n | n in t.nodes
      ensures match t.nodes[n].parent
          case None => n == t.root
          case Some(q) =>
            && q in t.nodes
            && t.nodes[q].depth + 1 == t.nodes[n].depth
            && n in t.nodes[q].children
    {
      ParentLink(jobs, cats, t, n);
    }
    forall n, i | n in t.nodes && 0 <= i < |t.nodes[n].children|
      ensures t.nodes[n].children[i] in t.nodes
      ensures t.nodes[t.nodes[n].children[i]].parent == Some(n)
    {
      ChildLink(jobs, cats, t, n, i);
    }
  }

  /**
   * The browser lists categories in order of their displayed names and the
   * jobs of a category in order of their ids; the jobs under a category are
   * exactly the list entries filed under it, and a job node carries the
   * summary of the first entry with its id.
   */
  lemma BuildOrder(jobs: seq<JobInfo>, cats: seq<Category>, failing: set<NodeId>)
    requires OneCategoryPerJob(jobs)
    ensures var t := Build(jobs, cats, failing); var cs := t.nodes[RootId].children;
      && multiset(cs) == multiset(CategoryNodes(CategoryIds(cats)))
      && (forall i, j | 0 <= i < j < |cs| :: StrOrder.Le(t.nodes[cs[i]].name, t.nodes[cs[j]].name))
    ensures var t := Build(jobs, cats, failing);
      forall c | c in t.nodes && c.CategoryId? ::
        var js := t.nodes[c].children;
        && multiset(js) == multiset(JobNodes(JobsIn(jobs, c.category)))
        && forall i, j | 0 <= i < j < |js| :: StrOrder.Le(js[i].job, js[j].job)
  {
    var t := Build(jobs, cats, failing);
    RootOrder(jobs, cats, t);
    forall c | c in t.nodes && c.CategoryId?
      ensures var js := t.nodes[c].children;
        && multiset(js) == multiset(JobNodes(JobsIn(jobs, c.category)))
        && forall i, j | 0 <= i < j < |js| :: StrOrder.Le(js[i].job, js[j].job)
    {
      CategoryOrder(jobs, cats, t, c.category);
    }
  }

  /** The root lists every participating category once, ordered by displayed name. */
  lemma RootOrder(jobs: seq<JobInfo>, cats: seq<Category>, t: Tree)
    requires IsBuilt(jobs, cats, t) && WellFormed(t)
    ensures var cs := t.nodes[RootId].children;
      && multiset(cs) == multiset(CategoryNodes(CategoryIds(cats)))
      && (forall i, j | 0 <= i < j < |cs| :: StrOrder.Le(t.nodes[cs[i]].name, t.nodes[cs[j]].name))
  {
    var ks := RootChildKeys(cats);
    var cs := t.nodes[RootId].children;
    assert cs == CategoryNodes(ks);
    WrapPermutation(ks, CategoryIds(cats));
    forall i, j | 0 <= i < j < |cs| ensures StrOrder.Le(t.nodes[cs[i]].name, t.nodes[cs[j]].name) {
      RootChildName(jobs, cats, t, i);
      RootChildName(jobs, cats, t, j);
    }
  }

  /** The `i`-th child of the root is a category node labelled with its translated name. */
  lemma RootChildName(jobs: seq<JobInfo>, cats: seq<Category>, t: Tree, i: int)
    requires IsBuilt(jobs, cats, t) && 0 <= i < |RootChildKeys(cats)|
    ensures t.nodes[RootId].children[i] == CategoryId(RootChildKeys(cats)[i])
    ensures CategoryId(RootChildKeys(cats)[i]) in t.nodes
    ensures t.nodes[CategoryId(RootChildKeys(cats)[i])].name == CategoryName(cats, RootChildKeys(cats)[i])
  {
    var c := RootChildKeys(cats)[i];
    assert c in multiset(CategoryIds(cats));
    assert CategoryId(c) in NodeIds(jobs, cats);
  }

  /** A category lists exactly the jobs filed under it, ordered by id. */
  lemma CategoryOrder(jobs: seq<JobInfo>, cats: seq<Category>, t: Tree, cid: string)
    requires IsBuilt(jobs, cats, t) && CategoryId(cid) in t.nodes
    ensures var js := t.nodes[CategoryId(cid)].children;
      && multiset(js) == multiset(JobNodes(JobsIn(jobs, cid)))
      && forall i, j | 0 <= i < j < |js| :: StrOrder.Le(js[i].job, js[j].job)
  {
    var jk := CategoryChildKeys(jobs, cid);
    assert t.nodes[CategoryId(cid)].children == JobNodes(jk);
    JobWrapPermutation(jk, JobsIn(jobs, cid));
  }

  /** Wrapping keys as category nodes keeps permutations. */
  lemma {:induction false} WrapPermutation(a: seq<string>, b: seq<string>)
    requires multiset(a) == multiset(b)
    ensures multiset(CategoryNodes(a)) == multiset(CategoryNodes(b))
  {
    forall n ensures multiset(CategoryNodes(a))[n] == multiset(CategoryNodes(b))[n] {
      if n.CategoryId? {
        WrapCount(a, n.category);
        WrapCount(b, n.category);
      } else {
        assert n !in CategoryNodes(a) && n !in CategoryNodes(b);
      }
    }
  }

  /** Wrapping keys as job nodes keeps permutations. */
  lemma {:induction false} JobWrapPermutation(a: seq<string>, b: seq<string>)
    requires multiset(a) == multiset(b)
    ensures multiset(JobNodes(a)) == multiset(JobNodes(b))
  {
    forall n ensures multiset(JobNodes(a))[n] == multiset(JobNodes(b))[n] {
      if n.JobId? {
        JobWrapCount(a, n.job);
        JobWrapCount(b, n.job);
      } else {
        assert n !in JobNodes(a) && n !in JobNodes(b);
      }
    }
  }

  /** A wrapped key occurs as often as the key itself. */
  lemma {:induction false} WrapCount(a: seq<string>, x: string)
    ensures multiset(CategoryNodes(a))[CategoryId(x)] == multiset(a)[x]
  {
    if a != [] {
      WrapCount(a[1..], x);
      assert a == [a[0]] + a[1..];
      assert CategoryNodes(a) == [CategoryId(a[0])] + CategoryNodes(a[1..]);
    }
  }

  /** A wrapped key occurs as often as the key itself. */
  lemma {:induction false} JobWrapCount(a: seq<string>, x: string)
    ensures multiset(JobNodes(a))[JobId(x)] == multiset(a)[x]
  {
    if a != [] {
      JobWrapCount(a[1..], x);
      assert a == [a[0]] + a[1..];
      assert JobNodes(a) == [JobId(a[0])] + JobNodes(a[1..]);
    }
  }

  /**
   * A job is in the tree exactly when some entry files it under a
   * participating category; its node hangs under that category and carries
   * the summary of the first entry with its id.
   */
  lemma BuildJobNode(jobs: seq<JobInfo>, cats: seq<Category>, failing: set<NodeId>, id: string)
    requires OneCategoryPerJob(jobs)
    ensures var t := Build(jobs, cats, failing);
      JobId(id) in t.nodes <==> Shown(jobs, cats, id)
    ensures var t := Build(jobs, cats, failing);
      forall k | 0 <= k < |jobs| && jobs[k].id == id && JobId(id) in t.nodes ::
        && t.nodes[JobId(id)].parent == Some(CategoryId(jobs[k].categoryId))
        && ((forall m | 0 <= m < k :: jobs[m].id != id) ==> t.nodes[JobId(id)].name == jobs[k].name)
  {
    var t := Build(jobs, cats, failing);
    var ids := CategoryIds(cats);
    if JobId(id) in t.nodes {
      var k :| 0 <= k < |jobs| && jobs[k].id == id && jobs[k].categoryId in ids;
      var c :| 0 <= c < |cats| && ids[c] == jobs[k].categoryId;
      assert Shown(jobs, cats, id);
    }
    if Shown(jobs, cats, id) {
      var k, c :| 0 <= k < |jobs| && 0 <= c < |cats| && jobs[k].id == id && jobs[k].categoryId == cats[c].id;
      assert jobs[k].categoryId == ids[c];
    }
    forall k | 0 <= k < |jobs| && jobs[k].id == id && JobId(id) in t.nodes
      ensures t.nodes[JobId(id)].parent == Some(CategoryId(jobs[k].categoryId))
      ensures (forall m | 0 <= m < k :: jobs[m].id != id) ==> t.nodes[JobId(id)].name == jobs[k].name
    {
      FoundJobCategory(jobs, id, k);
      assert t.nodes[JobId(id)] == NodeFor(jobs, cats, JobId(id));
      if forall m | 0 <= m < k :: jobs[m].id != id {
        FirstJobIndex(jobs, id, k);
      }
    }
  }
}

=== FILE: widgets.dfy ===
/**
 * The per-session widget state that the source keeps in urwid widgets and in
 * module globals: which nodes have a live widget and each widget's `flagged`,
 * the `_widget_cache` of job widgets, and `show_job_ids`.
 */
module Widgets {
  import opened CategoryTree

  /**
   * `widgets` maps each node that has a live widget to that widget's
   * `flagged`; `cache` is the set of keys of `_widget_cache`; `showIds` is
   * `show_job_ids`.
   */
  datatype Session = Session(widgets: map<NodeId, bool>, cache: set<string>, showIds: bool)

  /**
   * The value `get_widget().flagged` yields for `n`: a node without a widget
   * gets one built on demand, and a fresh widget starts flagged.
   */
  predicate Flagged(s: Session, n: NodeId)
  {
    n !in s.widgets || s.widgets[n]
  }

  /** The cache holds exactly the ids of the job nodes that have a widget. */
  ghost predicate CacheOk(s: Session)
  {
    forall id {:trigger JobId(id)} :: id in s.cache <==> JobId(id) in s.widgets
  }

  /** `add_widget(id, widget)`: registers a job widget under its id. */
  function AddWidget(s: Session, id: string): (r: Session)
    ensures r.cache == s.cache + {id}
    ensures r.widgets == s.widgets && r.showIds == s.showIds
  {
    s.(cache := s.cache + {id})
  }

  /**
   * `node.get_widget()`: on first use builds the widget, flagged, and a job
   * widget's constructor calls `add_widget`; afterwards returns the same one.
   */
  function GetWidget(s: Session, n: NodeId): (r: Session)
    ensures n in r.widgets
    ensures r.widgets.Keys == s.widgets.Keys + {n}
    ensures forall m {:trigger Flagged(r, m)} :: Flagged(r, m) == Flagged(s, m)
    ensures CacheOk(s) ==> CacheOk(r)
    ensures r.showIds == s.showIds
  {
    if n in s.widgets then s
    else
      var s1 := s.(widgets := s.widgets[n := true]);
      if IsLeaf(n) then AddWidget(s1, n.job) else s1
  }

  /** `widget.flagged = v` on a live widget. */
  function SetFlag(s: Session, n: NodeId, v: bool): (r: Session)
    requires n in s.widgets
    ensures Flagged(r, n) == v
    ensures forall m {:trigger Flagged(r, m)} | m != n :: Flagged(r, m) == Flagged(s, m)
    ensures r.widgets.Keys == s.widgets.Keys && r.cache == s.cache && r.showIds == s.showIds
  {
    s.(widgets := s.widgets[n := v])
  }

  /**
   * Reference for the propagation passes: every node of `ns` gets a live
   * widget (registered if it is a job) whose flag is `v`; nothing else changes.
   */
  ghost function Mark(s: Session, ns: set<NodeId>, v: bool): (r: Session)
    ensures forall m {:trigger Flagged(r, m)} :: Flagged(r, m) == (if m in ns then v else Flagged(s, m))
    ensures r.widgets.Keys == s.widgets.Keys + ns
    ensures CacheOk(s) ==> CacheOk(r)
    ensures r.showIds == s.showIds
  {
    Session(
      map m | m in s.widgets.Keys + ns :: if m in ns then v else s.widgets[m],
      s.cache + NewJobIds(s, ns),
      s.showIds)
  }

  /** Ids of the job nodes of `ns` that do not have a widget yet. */
  ghost function NewJobIds(s: Session, ns: set<NodeId>): (ids: set<string>)
    ensures forall id {:trigger JobId(id)} :: id in ids <==> JobId(id) in ns && JobId(id) !in s.widgets
  {
    set m | m in ns && m !in s.widgets && IsLeaf(m) :: m.job
  }

  /** Fetching a widget and then setting its flag marks exactly that node. */
  lemma GetThenSet(s: Session, n: NodeId, v: bool)
    ensures SetFlag(GetWidget(s, n), n, v) == Mark(s, {n}, v)
  {
    var r := SetFlag(GetWidget(s, n), n, v);
    var m := Mark(s, {n}, v);
    assert r.widgets == m.widgets;
    assert r.cache == m.cache by {
      forall id ensures id in r.cache <==> id in m.cache {
        assert JobId(id) in {n} <==> n == JobId(id);
      }
    }
  }

  /** Marking nothing changes nothing. */
  lemma MarkNothing(s: Session, v: bool)
    ensures Mark(s, {}, v) == s
  {
    var m := Mark(s, {}, v);
    assert m.widgets == s.widgets;
    assert m.cache == s.cache by {
      forall id ensures id in m.cache <==> id in s.cache {
        assert JobId(id) !in {};
      }
    }
  }

  /** Two marks with the same value are one mark of the union. */
  lemma MarkTwice(s: Session, a: set<NodeId>, b: set<NodeId>, v: bool)
    ensures Mark(Mark(s, a, v), b, v) == Mark(s, a + b, v)
  {
    var m1 := Mark(s, a, v);
    var l := Mark(m1, b, v);
    var r := Mark(s, a + b, v);
    assert l.widgets == r.widgets;
    assert l.cache == r.cache by {
      forall id ensures id in l.cache <==> id in r.cache {
        assert JobId(id) in a + b <==> JobId(id) in a || JobId(id) in b;
      }
    }
  }
}

=== FILE: wrappers.dfy ===
/** `Option` for a value that may be missing and `Result` for an operation that may raise. */
module Wrappers {

  /** A value that may be absent (Python's `None`). */
  datatype Option<+T> = None | Some(value: T)

  /** Either a value or the exception the source would raise instead. */
  datatype Result<+R, +E> = Success(value: R) | Failure(error: E)
}
